=== FILE: README.md ===
# Salsa20 for JavaScript, modelled in Dafny

A model of the pure-JavaScript Salsa20 stream cipher `node-salsa20`. The
repository holds two cipher objects that share one algorithm:

- the legacy object in `salsa20.js`, built as `salsa20(rounds).key(buf)`;
- the canonical object in `src/salsa20.js`, built as
  `new Salsa20(options).key(k).nonce(n)`, with `seek`.

Both objects run the Salsa20 core: double rounds of quarter-rounds on sixteen
32-bit words, then a word-wise feed-forward addition. Both fill a 16-word
key-expansion template from the key and the nonce, and write a 64-bit block
counter into slots 8 and 9 for each block. The legacy object xors the
keystream into the caller's `ArrayBuffer` in place and returns it. The
canonical object copies the data (src/salsa20.js:158), xors the copy
(src/salsa20.js:177) and returns it, so the caller's bytes are untouched.

The model is pure. Each object is an immutable value with an explicit setup
stage:

- a method that the JavaScript object has not bound, or has deleted, fails
  with `MethodMissing`;
- every thrown exception is a `Failure` of `Host.Result`.

Modules:

- `Words`: 32-bit words and bytes, the rotation `R`, wrap-around addition,
  and little- and big-endian serialisation.
- `Core`: the round body as the table of 32 statements the source writes.
  It has an interpreter, the column and row rounds of the Salsa20
  specification, the feed-forward, and the loops of `coreFunc`.
- `Host`: errors, JavaScript scalars, the binary argument kinds, and the
  `inputarray` coercion.
- `Rounds`: the round option of both constructors.
- `BlockCounter`: the two-word counter and `_counterInc`.
- `Expansion`: the sigma and tau templates, the counter slots, the
  canonical `_initialize`, and their agreement with section 9 of the
  Salsa20 specification.
- `Stream`: block generation, byte-exact random access into the keystream,
  and the loops of `_xorBuf`.
- `Cipher`: the canonical object: `key`, `setNonce`, `nonce`, `seek`,
  `encrypt`/`decrypt`.
- `Legacy`: the legacy object, as written and as evidently intended.
- `Vectors`: the known-answer vectors of the repository's test script.

## Behaviour worth knowing

1. **Block count of the canonical object.** It generates
   `floor(len / 64) + 1` blocks per call (src/salsa20.js:161), one more
   than `ceil(len / 64)` when `len` is a multiple of 64. The output bytes
   do not depend on the extra block. The counter does: it moves one block
   further in that case, and an empty call still uses up one block
   (`Stream.BlocksCover`, `Cipher.Encrypt`).
2. **Consecutive calls of the canonical object.** Each call starts at the
   block after the last one the previous call generated
   (src/salsa20.js:161-168), not at the byte where the previous call's
   data ended (`Cipher.ConsecutiveCalls`).
3. **Byte order of the legacy object.** It serialises each word most
   significant byte first (salsa20.js:210-213). Section 7 of the Salsa20
   specification uses little-endian order. See Findings.
4. **The legacy `rounds` argument.** It counts double rounds: each
   iteration of the loop at salsa20.js:62 is a column round followed by a
   row round. A fractional count runs `ceil(rounds)` double rounds.

## Model

| member | source | states |
|---|---|---|
| Words.RIsRotation | salsa20.js:57 | At the four shift distances the core uses (7, 9, 13, 18), `R` is the 32-bit left rotation. |
| Words.WordBytesRoundTrip | src/salsa20.js:170-173 | The four masked shifts of a word reassemble into that word, and bytes assembled into a word come back out unchanged. |
| Words.WordsOfBytesLE | src/salsa20.js:169-174 | Reading a little-endian serialisation back as words gives the original words. |
| Words.BytesOfWordsLE | src/salsa20.js:135-137 | Serialising the words a byte buffer is read as gives the buffer back. |
| Words.BytesLEAt | src/salsa20.js:169-174 | Byte `i` of a little-endian serialisation is byte `i % 4`, counted from the least significant end, of word `i / 4`. |
| Words.BytesBEAt | salsa20.js:209-214 | Byte `i` of a big-endian serialisation is byte `3 - i % 4` of word `i / 4`. |
| Words.XorInvolution | src/salsa20.js:177 | Xor-ing data twice with the same pad restores the data. |
| Core.StepSelfInverse | salsa20.js:63 | A statement `x[t] ^= R(x[p] + x[q], s)` that does not read its own target undoes itself. |
| Core.RunAppend | salsa20.js:63-78 | Running two statement lists in sequence is running their concatenation. |
| Core.RunReverseUndoes | salsa20.js:63-78 | Running a list of such statements and then the same list backwards restores the state. |
| Core.QuarterRoundStmtsMatch | salsa20.js:63-64 | The four statements of one quarter-round store the quarter-round of section 3 of the Salsa20 specification into their four distinct slots and change no other slot. |
| Core.ColumnStmtsMatch | salsa20.js:63-70 | The first sixteen statements of the loop body are the column round of section 5 of the Salsa20 specification: quarter-rounds on (0,4,8,12), (5,9,13,1), (10,14,2,6) and (15,3,7,11). |
| Core.RowStmtsMatch | salsa20.js:71-78 | The last sixteen statements are the row round of section 4 of the Salsa20 specification: quarter-rounds on (0,1,2,3), (5,6,7,4), (10,11,8,9) and (15,12,13,14). |
| Core.DoubleRoundIsRowOfColumn | salsa20.js:62-79 | One iteration of the round loop is the row round applied after the column round. |
| Core.DoubleRoundInverse | salsa20.js:63-78 | Every state is the double round of some state: the round body is onto. |
| Core.DoubleRoundInverseUndoes | salsa20.js:63-78 | Undoing a double round after running it restores the state. |
| Core.DoubleRoundsInvertible | salsa20.js:62-79 | Running `n` double rounds and undoing them cancel in both orders, so the round function is a permutation. |
| Core.DoubleRoundsAfter | salsa20.js:62-79 | `n + 1` iterations are one more double round after `n`. |
| Core.DoubleRoundsInjective | salsa20.js:62-79 | Distinct inputs give distinct permuted states. |
| Core.RoundLoop | salsa20.js:61-79 | The loop on the scratch copy computes `rounds` double rounds of the input. |
| Core.FeedForwardLoop | salsa20.js:81 | Every output word is the permuted word plus the input word, modulo 2^32 (an addition, not an xor). |
| Core.CoreFunc | salsa20.js:56-82 | `coreFunc` returns the Salsa20 core of its input with `rounds` double rounds and leaves its input unchanged. |
| Host.InputArray | src/inputarray.js:16-25 | An `ArrayBuffer`, `Uint8Array` or `Buffer` yields exactly its bytes. Anything else fails with `InvalidInput`, and nothing else fails. |
| Rounds.DetermineDoubleRounds | src/salsa20.js:14-34 | Giving both properties fails with `ConflictingRounds`, and only that fails with it. `null` fails with `NotAnObject`. A bare integer, a truthy `doubleRounds` alone, or half of a truthy `rounds` alone is validated as the count: a positive integer is the result, anything else fails with `InvalidRounds`. Every other argument gives 10. |
| Rounds.NonPositiveOrFractionRejected | src/salsa20.js:24-33 | A non-zero `doubleRounds`, or twice it as `rounds`, that is not a positive integer is rejected: `{doubleRounds: -3}`, `{doubleRounds: 2.5}`, `{rounds: -4}` and `{rounds: 0.5}` all fail with `InvalidRounds`. |
| Rounds.Validate | src/salsa20.js:30-33 | Succeeds exactly on positive integers and returns that number; otherwise fails with `InvalidRounds`. |
| Rounds.DefaultIsTen | src/salsa20.js:14-34 | No argument, or an empty options object, gives 10 double rounds. |
| Rounds.BareInteger | src/salsa20.js:16-33 | A bare positive integer is the count; zero or a negative integer is rejected. |
| Rounds.BareFractionIgnored | src/salsa20.js:16-29 | A bare non-integer is read as an options object with neither property, so the default applies. |
| Rounds.RoundsHalved | src/salsa20.js:27-28 | `{rounds: 2k}` and `{doubleRounds: k}` both give `k`. |
| Rounds.OddRoundsRejected | src/salsa20.js:27-33 | An odd `rounds` halves to a non-integer and is rejected. |
| Rounds.FalsyIgnored | src/salsa20.js:24-28 | Zero or `null` in one property alone is ignored. `null` still counts as given for the conflict check. |
| Rounds.LegacyDoubleRounds | salsa20.js:51-62 | The legacy count is at least 10. An integer of at least 10 is taken as is, and anything falsy or below 10 becomes 10. A fraction runs the next integer up. |
| BlockCounter.Inc | src/salsa20.js:129-132 | The 64-bit value of the two counter words goes up by one modulo 2^64: the low word wraps and carries into the high word. |
| BlockCounter.ValueInjective | src/salsa20.js:125 | Two counters are equal exactly when their 64-bit values are. |
| BlockCounter.IncNAdd | src/salsa20.js:129-132 | Advancing `a` blocks and then `b` blocks is advancing `a + b` blocks. |
| BlockCounter.IncMoves | src/salsa20.js:129-132 | Every block moves the counter. |
| BlockCounter.FromBytes | src/salsa20.js:225-226 | The counter read from nonce bytes 8-15 serialises back to exactly those bytes. |
| Expansion.Fill | src/salsa20.js:56-78 | The constants go in slots 0, 5, 10 and 15, the key halves in slots 1-4 and 11-14, and the nonce in slots 6-7. Slots 8-9 keep the buffer's words. |
| Expansion.WithCounter | src/salsa20.js:80-87 | The counter words land in slots 8 and 9 and every other slot is unchanged. |
| Expansion.Initialize | src/salsa20.js:134-152 | Succeeds exactly for 16- and 32-byte keys; any other length fails with `InvalidKeyLength`. |
| Expansion.Expand32Text | src/salsa20.js:58-60 | The 32-byte key's constant bytes spell "expand 32-byte k". |
| Expansion.Expand16Text | src/salsa20.js:92-94 | The 16-byte key's constant bytes spell "expand 16-byte k". |
| Expansion.SigmaSpellsExpand32 | src/salsa20.js:58-60 | The four sigma words are "expand 32-byte k" read as little-endian words. |
| Expansion.TauSpellsExpand16 | src/salsa20.js:92-94 | The four tau words are "expand 16-byte k" read as little-endian words. |
| Expansion.Section9Key8 | src/salsa20.js:56-87 | For a 32-byte key, every block's core input is the input of section 9 of the Salsa20 specification: the "expand 32-byte k" pieces, the key, the nonce and the little-endian block number. |
| Expansion.Section9Key4 | src/salsa20.js:90-121 | The same for a 16-byte key around "expand 16-byte k", with the key used twice. |
| Stream.KeystreamAt | src/salsa20.js:167-175 | Byte `m` of the generated keystream is byte `m % 64` of the block for the counter `m / 64` steps on. |
| Stream.KeystreamAll | src/salsa20.js:167-175 | This holds for every byte of the generated keystream. |
| Stream.KeystreamSnoc | src/salsa20.js:167-168 | Generating one block more appends the block for the next counter value. |
| Stream.StreamByteShift | src/salsa20.js:181-184 | The stream that starts `k` blocks on is the stream from byte `64 k` on. |
| Stream.ShiftedKeystreamAt | src/salsa20.js:181-184 | A byte of the shifted stream is the matching byte of a longer generated keystream. |
| Stream.BlocksCover | src/salsa20.js:161-164 | `floor(len / 64) + 1` blocks always cover the data. When `len` is a multiple of 64 there is exactly one whole block to spare. |
| Stream.BlockIsCoreOutput | src/salsa20.js:168-174 | A little-endian block read back as words is the core's output for that counter. |
| Stream.Combine | src/salsa20.js:177 | Output byte `i` is data byte `i` xor keystream byte `i`, and the length is the data's. |
| Stream.SerializeBlock | src/salsa20.js:169-174 | The byte loop produces the chosen serialisation of the block. |
| Stream.GenerateKeystream | src/salsa20.js:167-175 | The generation loop produces the keystream of `count` blocks and leaves the counter `count` steps on. |
| Stream.XorLoop | src/salsa20.js:177 | The xor loop produces the combination of the data with the keystream. |
| Cipher.New | src/salsa20.js:39-46 | Construction succeeds exactly when the round option is accepted, and fails with its error otherwise. Only `key` is then bound. |
| Cipher.SetNonce | src/salsa20.js:218-230 | A nonce that is not 8 or 16 bytes fails with `InvalidNonceLength`. Otherwise the template is `_initialize` of the first 8 bytes. Bytes 8-15 of a long nonce are the counter; a short nonce starts at zero. |
| Cipher.Key | src/salsa20.js:203-240 | Only an unkeyed object accepts a key. A non-binary key fails with `InvalidInput`. A key succeeds exactly for 16, 24, 32 or 40 bytes; any other binary key fails with `InvalidKeyLength`. 16 or 32 bytes wait for a nonce; 24 or 40 bytes carry the nonce and finish the setup. Validity is preserved. |
| Cipher.Nonce | src/salsa20.js:218-236 | Only an object waiting for a nonce accepts one. It succeeds exactly for 8 or 16 binary bytes, fails with `InvalidNonceLength` for any other binary nonce, and never fails on the key length, because `key` already checked it. |
| Cipher.SeekTo | src/salsa20.js:181-184 | `seek` exists only once the object is ready. It sets both counter words and nothing else. |
| Cipher.Encrypt | src/salsa20.js:157-179 | Output byte `i` is input byte `i` xor byte `i` of the stream from the current counter. The output has the input's length, and the caller's bytes are untouched. The counter moves `floor(len / 64) + 1` blocks. Calls fail with `MethodMissing` before the setup is complete and with `InvalidInput` on non-binary data. |
| Cipher.XorReady | src/salsa20.js:160-178 | The loops of `_xorBuf` compute the keystream and the new counter that `Encrypt` specifies. |
| Cipher.XorBuf | src/salsa20.js:157-179 | `_xorBuf` with its coercion and loops is `Encrypt`. |
| Cipher.RoundTrip | src/salsa20.js:157-184 | Encrypting at a counter, seeking back, and passing the result through the same function returns the plaintext. |
| Cipher.SeekRandomAccess | src/salsa20.js:181-184 | After seeking to block `k`, byte `i` is xor-ed with byte `64 k + i` of the stream from counter zero. |
| Cipher.ConsecutiveCalls | src/salsa20.js:161-168 | A second call continues `64 (floor(len / 64) + 1)` bytes into the stream. That is past the first call's data, and a whole block on for data a multiple of 64 long. |
| Cipher.NoncePrefixIsKeyThenNonce | src/salsa20.js:208-236 | A 24- or 40-byte key buffer is the same as `key(buf[8..])` followed by `nonce(buf[..8])`. |
| Cipher.LongNonceIsSeek | src/salsa20.js:223-227 | A 16-byte nonce is its first 8 bytes followed by a seek to the counter in its last 8. |
| Cipher.SetupIsSection9 | src/salsa20.js:203-236 | After `key` and `nonce`, every block's core input is the input of section 9 of the Salsa20 specification for that key, nonce and block number, and the counter starts at zero. |
| Legacy.New | salsa20.js:51-53 | The legacy object runs at least 10 double rounds and starts unkeyed. |
| Legacy.FillKey8AsWritten | salsa20.js:123-145 | The fill in force for 32-byte keys puts tau in slots 0, 5, 10 and 15, key words 0-3 in both slots 1-4 and slots 11-14, and the nonce in slots 6-7. Slots 8-9 are kept. |
| Legacy.InitializeAsWritten | salsa20.js:166-188 | Only a 32-byte key succeeds. A 16-byte key fails at the call of the undeclared `_salsa20BufferFillKey4`. |
| Legacy.KeyBytes | salsa20.js:229-233 | Buffer bytes 8-23 are the key when the buffer is shorter than 40 bytes, and bytes 8-39 otherwise. |
| Legacy.Key | salsa20.js:221-239 | Fails with `MethodMissing` once keyed. Fails with `InvalidKey` on a non-`ArrayBuffer` or on fewer than 24 bytes. 24-39 bytes throw. 40 or more bytes give the tau template on key words 0-3. |
| Legacy.CeilBlocks | salsa20.js:200 | The block count is the least number of 64-byte blocks covering the data. |
| Legacy.Encrypt | salsa20.js:196-219 | Output byte `i` is data byte `i` xor byte `i` of the big-endian stream from counter zero. The object is unchanged, and the caller's buffer is overwritten with the returned bytes. Calls fail with `MethodMissing` unkeyed and `InvalidInput` on a non-`ArrayBuffer`. |
| Legacy.XorBuf | salsa20.js:196-219 | `_xorBuf` with its loops is `Encrypt`. |
| Legacy.RoundTrip | salsa20.js:196-219 | Decrypting the ciphertext with the same object returns the plaintext with no seek, because every call restarts the counter. |
| Legacy.KeyIgnoresTail | salsa20.js:229-233 | Key buffer bytes past 40 have no effect. |
| Legacy.KeyAsWrittenIgnoresUpperKey | salsa20.js:123-145 | Buffers that differ only in bytes 24-39 give the same object, and slot 5 holds tau's 0x3120646e rather than sigma's. |
| Legacy.ShortKeyAsWrittenThrows | salsa20.js:166-188 | Every key buffer of 24-39 bytes fails with `UndeclaredFunction`. |
| Legacy.KeyIntended | salsa20.js:166-188 | With the fill matching the key length: sigma and all eight key words for bytes 8-39, and tau for bytes 8-23. |
| Legacy.KeyIntendedIsSection9 | salsa20.js:221-233 | The intended setup gives the core input of section 9 of the Salsa20 specification for both key lengths. |
| Legacy.BigEndianDiffers | salsa20.js:209-214 | The first byte of a big-endian block is the top byte of word 0, not the bottom byte. A block starting 0x61707865 begins 61 70 78 65 instead of 65 78 70 61. |
| Legacy.EncryptIntended | salsa20.js:196-219 | The same framing with little-endian blocks: byte `i` is data byte `i` xor byte `i` of the little-endian stream from zero. |
| Legacy.IntendedBlockIsCoreOutput | salsa20.js:207-214 | With the intended byte order a block read back as words is the core output, as section 7 of the Salsa20 specification reads it. |
| Vectors.Core1Vector | test.salsa20.js:66-80 | The example of section 8 of the Salsa20 specification whose input starts 211, 159 and whose output starts 109, 42: with 10 double rounds the core maps the input words to the output words. |
| Vectors.Core2Vector | test.salsa20.js:83-97 | The example of section 8 of the Salsa20 specification whose input starts 88, 118 and whose output starts 179, 19, likewise. |
| Vectors.Key32Vector | test.salsa20.js:99-117 | The 256-bit key setup of section 9 of the Salsa20 specification is key 1..16, 201..216, nonce 101..108, and block number 109..116. Its block is the published keystream block. |
| Vectors.Key16Vector | test.salsa20.js:119-135 | The 128-bit key setup of section 9 of the Salsa20 specification is key 1..16 with the same nonce and block number. Its block is the published keystream block. |
| Vectors.KeyThenSeek | test.salsa20.js:34-44 | `key` on nonce bytes followed by 16 or 32 key bytes, then `seek`, leaves the object ready with that key's template and the sought counter. |
| Vectors.EncryptOwnBlock | test.salsa20.js:46-48 | Encrypting exactly the block the object is about to generate returns zero bytes. |
| Vectors.ExpansionTest | test.salsa20.js:34-49 | The test path `key`, `seek`, `encrypt` returns 64 zero bytes when the core maps the template with that counter to the given block. |
| Vectors.Key32Test | test.salsa20.js:99-117 | For the 40-byte buffer of the 256-bit test, `key`, `seek` to the block number and `encrypt` of the published block return 64 zero bytes, as the test asserts. |
| Vectors.Key16Test | test.salsa20.js:119-135 | The same for the 24-byte buffer of the 128-bit test. |

## Left out

- `./core` (required at src/salsa20.js:48-49) is not part of this model. The canonical object is taken to run the same core as `coreFunc` in salsa20.js:56-82, with `doubleRounds` iterations.
- The known-answer tests parse hex and byte arrays (test.salsa20.js:15-57). The vectors are written here as the little-endian words the cipher reads those bytes as, and the test buffers as the little-endian bytes of those words (`Vectors.Key32Test`). The byte-array literals are not restated.
- The test script loads salsa20.js, constructs `new salsa20(rounds, true)`, and calls `seek` and `core`, which that file never binds; `seek` and `core` are the methods the canonical object has when it is constructed with `{testing: true}` (src/salsa20.js:243-250) and set up. `Vectors.Key32Test` and `Vectors.Key16Test` therefore start from the canonical object with 10 double rounds. They seek to the two counter words directly, where the test reads them from nonce bytes 8-15 with a `Uint32Array`.
- Legacy.New: models construction with `new`, as test.salsa20.js:41 and example.js:20 do. A plain call such as `salsa20(12)` (salsa20.js:34-38, index.js:11) runs `_Salsa20` with `this` bound to the global object. Every such call then rebinds the same global methods, and the methods bound last win. This sharing is not modelled.
- Cipher.New: models construction with `new`. A plain call of the exported `_Salsa20` (src/salsa20.js:259) binds `key`, and later `nonce`, `encrypt` and `decrypt`, on the global object, which all such calls share. The methods bound last win; this sharing is not modelled.
- Platform byte order: `new Uint32Array(buffer)` is taken to read little-endian, as on every common host.
- JavaScript values beyond numbers, `undefined` and `null`, and beyond the two option properties, are not modelled. Strings, booleans, `NaN`, infinities and other objects fall under this.
- The `testing` option (src/salsa20.js:243-250), the deprecation warnings on the console, and the AMD and CommonJS exports are not modelled. They do not change results.
- `seek` arguments go through the `Uint32Array` store's `ToUint32` conversion. `Cipher.SeekTo` takes the two words after that conversion.
- The objects are mutated in place in the source: shared scratch buffers (`coreFuncX`, `_keyExpanBuffer`, `keyExpandBuffer_u32`), method binding and deletion, and the returned `self`. They are modelled as a new immutable value per call.
- `tau` is assigned without `var`, so it becomes a global. This happens in the second `_salsa20BufferFillKey8` of salsa20.js:123-127 and in `_salsa20BufferFillKey4` of src/salsa20.js:90-94. It has no effect on results and is not modelled.
- The `xorStream` scratch array of `len + 64` bytes is not modelled. The model keeps the generated keystream as a sequence instead.
- Legacy.Encrypt: the in-place update of the caller's `ArrayBuffer` is stated as the argument afterwards being equal to the returned bytes. Aliasing of the two buffers is not modelled.
- test.core.salsa20.js and test.expand4.salsa20.js are scratch copies of the core with their own bugs. They are not modelled; only the vectors of test.salsa20.js are.

## Findings

| source | as written | input that shows it | evidently intended | confidence | as-written member | corrected member |
|---|---|---|---|---|---|---|
| salsa20.js:123-145 | A second `function _salsa20BufferFillKey8` (the 16-byte fill) replaces the 32-byte fill of salsa20.js:89-111. 32-byte keys therefore get tau and key words 0-3 twice. | Key buffers of 40 bytes that differ only in bytes 24-39 give the same template, and slot 5 is 0x3120646e. | Sigma in slots 0, 5, 10 and 15, and key words 4-7 in slots 11-14, as section 9 of the Salsa20 specification has it. | high, not executed | Legacy.KeyAsWrittenIgnoresUpperKey | Legacy.KeyIntendedIsSection9 |
| salsa20.js:179 | `_initialize` calls `_salsa20BufferFillKey4`, which is never declared. | Any key buffer of 24 to 39 bytes throws a `ReferenceError`. | The tau fill of a 16-byte key. | high, not executed | Legacy.ShortKeyAsWrittenThrows | Legacy.KeyIntendedIsSection9 |
| salsa20.js:210-213 | Each block word is written most significant byte first. | A block whose first word is 0x61707865 starts 61 70 78 65. | Little-endian order (section 7 of the Salsa20 specification): 65 78 70 61, which the canonical object writes (src/salsa20.js:170-173). | medium, not executed | Legacy.BigEndianDiffers | Legacy.IntendedBlockIsCoreOutput |

=== FILE: cipher.dfy ===
/** The canonical cipher object: constructed with a round option, given a
    key, then a nonce, after which `encrypt`, `decrypt` and `seek` are bound
    and `key` and `nonce` are gone. The object's mutable state (the
    template buffer, the counter, which methods are bound) is an explicit
    value; a call that throws leaves the object as it was. */
module Cipher {
  import opened Words
  import opened Core
  import opened Host
  import opened BlockCounter
  import opened Expansion
  import opened Rounds
  import opened Stream

  /** Which methods are bound. `AwaitingNonce` holds the key bytes `setNonce`
      closes over; `Ready` holds the filled template and the counter. */
  datatype Stage =
    | Unkeyed
    | AwaitingNonce(key: seq<Byte>)
    | Ready(template: State, counter: Counter)

  datatype Instance = Instance(doubleRounds: nat, stage: Stage)

  /** What every reachable object satisfies: a positive round count, and a
      pending key of an accepted length. */
  predicate Valid(s: Instance) {
    s.doubleRounds > 0 &&
    (s.stage.AwaitingNonce? ==> |s.stage.key| == 16 || |s.stage.key| == 32)
  }

  /** The keystream generator of a ready object: little-endian blocks. */
  function Gen(s: Instance): (gen: Generator)
    requires s.stage.Ready?
    ensures Uniform(gen)
  {
    BlockGen(LittleEndian, s.doubleRounds, s.stage.template)
  }

  /** `new Salsa20(options)`: the round count is fixed, only `key` is
      bound. Construction with `new`; a plain call is not modelled. */
  function New(o: Options): (r: Result<Instance>)
    ensures r.Success? <==> DetermineDoubleRounds(o).Success?
    ensures r.Success? ==>
      Valid(r.value) && r.value.stage == Unkeyed && r.value.doubleRounds == DetermineDoubleRounds(o).value
    ensures r.Failure? ==> r.error == DetermineDoubleRounds(o).error
  {
    var n :- DetermineDoubleRounds(o);
    Success(Instance(n, Unkeyed))
  }

  /** `setNonce`, on bytes already coerced: an 8- or 16-byte nonce, whose
      first 8 bytes fill the template; the last 8 bytes of a 16-byte nonce
      are the starting counter, otherwise it starts at zero. */
  function SetNonce(s: Instance, key: seq<Byte>, nonce: seq<Byte>): (r: Result<Instance>)
    ensures |nonce| != 8 && |nonce| != 16 ==> r == Failure(InvalidNonceLength)
    ensures (|key| == 16 || |key| == 32) && (|nonce| == 8 || |nonce| == 16) ==> r.Success?
    ensures r.Success? ==>
      r.value.doubleRounds == s.doubleRounds && r.value.stage.Ready? &&
      Success(r.value.stage.template) == Initialize(nonce[..8], key)
    ensures r.Success? && |nonce| == 8 ==> r.value.stage.counter == ZERO
    ensures r.Success? && |nonce| == 16 ==> BytesLE([r.value.stage.counter.lo, r.value.stage.counter.hi]) == nonce[8..]
  {
    if |nonce| != 8 && |nonce| != 16 then Failure(InvalidNonceLength)
    else
      var t :- Initialize(nonce[..8], key);
      var c := if |nonce| == 16 then FromBytes(nonce[8..16]) else ZERO;
      Success(Instance(s.doubleRounds, Ready(t, c)))
  }

  /** `key(buf)`: only while unkeyed. A 24- or 40-byte buffer is an 8-byte
      nonce followed by the key and completes the setup at once; otherwise
      the buffer is the key and must be 16 or 32 bytes. */
  function Key(s: Instance, v: HostValue): (r: Result<Instance>)
    ensures !s.stage.Unkeyed? ==> r == Failure(MethodMissing)
    ensures s.stage.Unkeyed? && v.NotBinary? ==> r == Failure(InvalidInput)
    ensures s.stage.Unkeyed? && !v.NotBinary? ==>
      (r.Success? <==> |v.bytes| in {16, 24, 32, 40})
    ensures s.stage.Unkeyed? && !v.NotBinary? && !(|v.bytes| in {16, 24, 32, 40}) ==>
      r == Failure(InvalidKeyLength)
    ensures r.Success? ==> r.value.doubleRounds == s.doubleRounds
    ensures r.Success? && |v.bytes| in {16, 32} ==> r.value.stage == AwaitingNonce(v.bytes)
    ensures r.Success? && |v.bytes| in {24, 40} ==> r.value.stage.Ready?
    ensures Valid(s) && r.Success? ==> Valid(r.value)
  {
    if !s.stage.Unkeyed? then Failure(MethodMissing)
    else
      var bytes :- InputArray(v);
      if |bytes| == 24 || |bytes| == 40 then SetNonce(s, bytes[8..], bytes[..8])
      else if |bytes| != 16 && |bytes| != 32 then Failure(InvalidKeyLength)
      else Success(Instance(s.doubleRounds, AwaitingNonce(bytes)))
  }

  /** `nonce(buf)`: only between `key` and the first use. */
  function Nonce(s: Instance, v: HostValue): (r: Result<Instance>)
    ensures !s.stage.AwaitingNonce? ==> r == Failure(MethodMissing)
    ensures s.stage.AwaitingNonce? && v.NotBinary? ==> r == Failure(InvalidInput)
    ensures Valid(s) && s.stage.AwaitingNonce? && !v.NotBinary? ==>
      (r.Success? <==> |v.bytes| == 8 || |v.bytes| == 16)
    ensures s.stage.AwaitingNonce? && !v.NotBinary? && |v.bytes| != 8 && |v.bytes| != 16 ==>
      r == Failure(InvalidNonceLength)
    ensures Valid(s) ==> r != Failure(InvalidKeyLength)
    ensures r.Success? ==> r.value.stage.Ready? && r.value.doubleRounds == s.doubleRounds
    ensures Valid(s) && r.Success? ==> Valid(r.value)
  {
    if !s.stage.AwaitingNonce? then Failure(MethodMissing)
    else
      var bytes :- InputArray(v);
      SetNonce(s, s.stage.key, bytes)
  }

  /** `seek(lo, hi)`: only once ready; sets both counter words. */
  function SeekTo(s: Instance, lo: Word, hi: Word): (r: Result<Instance>)
    ensures r.Success? <==> s.stage.Ready?
    ensures r.Failure? ==> r.error == MethodMissing
    ensures r.Success? ==> r.value == Instance(s.doubleRounds, Ready(s.stage.template, Counter(lo, hi)))
  {
    if !s.stage.Ready? then Failure(MethodMissing)
    else Success(Instance(s.doubleRounds, Ready(s.stage.template, Counter(lo, hi))))
  }

  /** The work of `_xorBuf` on coerced data: `floor(len / 64) + 1` blocks
      from the current counter, which is left that many blocks on, and the
      data xor-ed with the stream. */
  function Process(s: Instance, data: seq<Byte>): (Instance, Xored)
    requires s.stage.Ready?
  {
    var blocks := |data| / 64 + 1;
    var ks := Keystream(Gen(s), s.stage.counter, blocks);
    (Instance(s.doubleRounds, Ready(s.stage.template, IncN(s.stage.counter, blocks))), Xored(Combine(data, ks), data))
  }

  /** `encrypt(buf)`, and `decrypt(buf)`, which is bound to the same
      function: only once ready. The data is copied, the copy is xor-ed
      with the keystream from the current counter and returned, and the
      counter moves on by `floor(len / 64) + 1` blocks. */
  function Encrypt(s: Instance, v: HostValue): (r: Result<(Instance, Xored)>)
    ensures !s.stage.Ready? ==> r == Failure(MethodMissing)
    ensures s.stage.Ready? ==> (r.Success? <==> !v.NotBinary?)
    ensures r.Failure? && s.stage.Ready? ==> r.error == InvalidInput
    ensures r.Success? ==>
      var out := r.value.1.returned;
      |out| == |v.bytes| && r.value.1.argument == v.bytes &&
      (forall i :: 0 <= i < |out| ==> out[i] == v.bytes[i] ^ StreamByte(Gen(s), s.stage.counter, i))
    ensures r.Success? ==>
      r.value.0 == Instance(s.doubleRounds, Ready(s.stage.template, IncN(s.stage.counter, |v.bytes| / 64 + 1)))
  {
    if !s.stage.Ready? then Failure(MethodMissing)
    else
      var data :- InputArray(v);
      KeystreamAll(Gen(s), s.stage.counter, |data| / 64 + 1);
      Success(Process(s, data))
  }

  /** `_xorBuf` with its loops, once the data is coerced: generate the
      blocks one by one, then xor byte by byte. */
  method XorReady(s: Instance, data: seq<Byte>) returns (after: Instance, res: Xored)
    requires s.stage.Ready?
    ensures (after, res) == Process(s, data)
  {
    var blocks := |data| / 64 + 1;
    var ks, c := GenerateKeystream(LittleEndian, s.doubleRounds, s.stage.template, s.stage.counter, blocks);
    var out := XorLoop(data, ks);
    after := Instance(s.doubleRounds, Ready(s.stage.template, c));
    res := Xored(out, data);
  }

  /** `_xorBuf` as bound to `encrypt` and `decrypt`. */
  method XorBuf(s: Instance, v: HostValue) returns (r: Result<(Instance, Xored)>)
    ensures r == Encrypt(s, v)
  {
    if !s.stage.Ready? {
      return Failure(MethodMissing);
    }
    var input := InputArray(v);
    if input.Failure? {
      return Failure(input.error);
    }
    var after, res := XorReady(s, input.value);
    r := Success((after, res));
  }

  /** Decryption undoes encryption: encrypt at a counter, seek back to it and
      pass the result through the same function, and the data comes back. */
  lemma RoundTrip(s: Instance, lo: Word, hi: Word, p: seq<Byte>)
    requires s.stage.Ready?
    ensures var e := Encrypt(SeekTo(s, lo, hi).value, ArrayBuffer(p));
      e.Success? &&
      var d := Encrypt(SeekTo(e.value.0, lo, hi).value, ArrayBuffer(e.value.1.returned));
      d.Success? && d.value.1.returned == p
  {
    var s1 := SeekTo(s, lo, hi).value;
    var e := Encrypt(s1, ArrayBuffer(p));
    var ct := e.value.1.returned;
    var s2 := SeekTo(e.value.0, lo, hi).value;
    assert s2 == s1;
    var pt := Encrypt(s2, ArrayBuffer(ct)).value.1.returned;
    forall i | 0 <= i < |p|
      ensures pt[i] == p[i]
    {
      ByteXorCancel(p[i], StreamByte(Gen(s1), Counter(lo, hi), i));
    }
  }

  /** One byte of `SeekRandomAccess`. */
  lemma SeekRandomAccessAt(s: Instance, k: nat, data: seq<Byte>, i: nat)
    requires s.stage.Ready? && i < |data|
    ensures var c := IncN(ZERO, k);
      var e := Encrypt(SeekTo(s, c.lo, c.hi).value, ArrayBuffer(data));
      e.Success? && e.value.1.returned[i] == data[i] ^ StreamByte(Gen(s), ZERO, 64 * k + i)
  {
    var c := IncN(ZERO, k);
    assert Gen(SeekTo(s, c.lo, c.hi).value) == Gen(s);
    StreamByteShift(Gen(s), ZERO, k, i);
  }

  /** Random access: after seeking to block `k`, byte `i` of the data is
      xor-ed with byte `64 k + i` of the stream that starts at counter zero
      (which `KeystreamAt` ties to the generated keystream); the blocks
      before are never generated. */
  lemma SeekRandomAccess(s: Instance, k: nat, data: seq<Byte>)
    requires s.stage.Ready?
    ensures var c := IncN(ZERO, k);
      var e := Encrypt(SeekTo(s, c.lo, c.hi).value, ArrayBuffer(data));
      e.Success? &&
      forall i :: 0 <= i < |data| ==> e.value.1.returned[i] == data[i] ^ StreamByte(Gen(s), ZERO, 64 * k + i)
  {
    forall i | 0 <= i < |data| {
      SeekRandomAccessAt(s, k, data, i);
    }
  }

  /** One byte of the second call in `ConsecutiveCalls`, where the first
      call generated `blocks` blocks. */
  lemma ConsecutiveCallsAt(s: Instance, p1: seq<Byte>, p2: seq<Byte>, blocks: nat, j: nat)
    requires s.stage.Ready? && j < |p2| && blocks == |p1| / 64 + 1
    ensures var e1 := Encrypt(s, ArrayBuffer(p1));
      e1.Success? &&
      var e2 := Encrypt(e1.value.0, ArrayBuffer(p2));
      e2.Success? &&
      e2.value.1.returned[j] == p2[j] ^ StreamByte(Gen(s), s.stage.counter, 64 * blocks + j)
  {
    var s1 := Instance(s.doubleRounds, Ready(s.stage.template, IncN(s.stage.counter, blocks)));
    assert Encrypt(s, ArrayBuffer(p1)).value.0 == s1;
    assert Gen(s1) == Gen(s);
    StreamByteShift(Gen(s), s.stage.counter, blocks, j);
  }

  /** Two calls in a row: the second call does not continue the stream where
      the first call's data ended. It starts after the last block the first
      call generated, `64 * (floor(len / 64) + 1)` bytes in, which is past
      the end of the first call's data; for data a whole number of blocks
      long, one whole block of the stream is skipped. */
  lemma ConsecutiveCalls(s: Instance, p1: seq<Byte>, p2: seq<Byte>)
    requires s.stage.Ready?
    ensures var e1 := Encrypt(s, ArrayBuffer(p1));
      e1.Success? &&
      var e2 := Encrypt(e1.value.0, ArrayBuffer(p2));
      e2.Success? &&
      var skip := 64 * (|p1| / 64 + 1);
      |p1| < skip && (|p1| % 64 == 0 ==> skip == |p1| + 64) &&
      forall j :: 0 <= j < |p2| ==>
        e2.value.1.returned[j] == p2[j] ^ StreamByte(Gen(s), s.stage.counter, skip + j)
  {
    BlocksCover(|p1|);
    forall j | 0 <= j < |p2| {
      ConsecutiveCallsAt(s, p1, p2, |p1| / 64 + 1, j);
    }
  }

  /** The backward-compatible 24- or 40-byte key buffer is the same as
      giving the key (its bytes from 8 on) and then the nonce (its first 8
      bytes). */
  lemma NoncePrefixIsKeyThenNonce(s: Instance, b: seq<Byte>)
    requires s.stage.Unkeyed? && (|b| == 24 || |b| == 40)
    ensures Key(s, ArrayBuffer(b)) == Nonce(Key(s, ArrayBuffer(b[8..])).value, ArrayBuffer(b[..8]))
  {
  }

  /** A 16-byte nonce is its first 8 bytes followed by a seek to the counter
      its last 8 bytes encode. */
  lemma LongNonceIsSeek(s: Instance, nonce: seq<Byte>)
    requires Valid(s) && s.stage.AwaitingNonce? && |nonce| == 16
    ensures var c := FromBytes(nonce[8..]);
      Nonce(s, ArrayBuffer(nonce)) == SeekTo(Nonce(s, ArrayBuffer(nonce[..8])).value, c.lo, c.hi)
  {
    assert nonce[..8][..8] == nonce[..8];
  }

  /** The core input of section 9 of the Salsa20 specification, as words,
      for a 32-byte key, an 8-byte nonce and a block number. */
  function Section9Key8Input(key: seq<Byte>, nonce: seq<Byte>, c: Counter): State
    requires |key| == 32 && |nonce| == 8
  {
    WordsLE(Section9Input32(key, nonce + BytesLE([c.lo, c.hi])))
  }

  /** The same for a 16-byte key. */
  function Section9Key4Input(key: seq<Byte>, nonce: seq<Byte>, c: Counter): State
    requires |key| == 16 && |nonce| == 8
  {
    WordsLE(Section9Input16(key, nonce + BytesLE([c.lo, c.hi])))
  }

  /** After `key` and `nonce`, the core's input for every block is the
      section 9 input for that key, nonce and block number, and the counter
      starts at zero. */
  lemma SetupIsSection9(s: Instance, key: seq<Byte>, nonce: seq<Byte>)
    requires s.stage.Unkeyed? && (|key| == 16 || |key| == 32) && |nonce| == 8
    ensures var k := Key(s, ArrayBuffer(key));
      k.Success? &&
      var q := Nonce(k.value, ArrayBuffer(nonce));
      q.Success? && q.value.stage.counter == ZERO &&
      (|key| == 32 ==> forall c :: Section9Key8Input(key, nonce, c) == WithCounter(q.value.stage.template, c)) &&
      (|key| == 16 ==> forall c :: Section9Key4Input(key, nonce, c) == WithCounter(q.value.stage.template, c))
  {
    assert nonce[..8] == nonce;
    forall c: Counter | true
      ensures |key| == 32 ==> Section9Key8Input(key, nonce, c) == WithCounter(Initialize(nonce, key).value, c)
      ensures |key| == 16 ==> Section9Key4Input(key, nonce, c) == WithCounter(Initialize(nonce, key).value, c)
    {
      if |key| == 32 {
        Section9Key8(BLANK, nonce, key, c);
      } else {
        Section9Key4(BLANK, nonce, key, c);
      }
    }
  }
}

=== FILE: core.dfy ===
/** The Salsa20 core (sections 3 to 8 of Bernstein's "Salsa20 specification"):
    double rounds of quarter-rounds on a 4x4 matrix of words, followed by a
    word-wise feed-forward addition of the input. Both the legacy and the
    canonical cipher run this one function. */
module Core {
  import opened Words

  /** The 16-word state, `x[0] .. x[15]`, row by row. */
  type State = s: seq<Word> | |s| == 16
    witness [0, 0, 0, 0, 0, 0, 0, 0, 0, 0, 0, 0, 0, 0, 0, 0]

  /** A slot of the state. */
  type Index = i: nat | i < 16

  /** The word computation inside one statement of the round body: the
      wrapping sum of two words, rotated left by a fixed distance. */
  type Mixer = (Word, Word) -> Word

  const Mix7: Mixer := (p: Word, q: Word) => R(Add(p, q), 7)
  const Mix9: Mixer := (p: Word, q: Word) => R(Add(p, q), 9)
  const Mix13: Mixer := (p: Word, q: Word) => R(Add(p, q), 13)
  const Mix18: Mixer := (p: Word, q: Word) => R(Add(p, q), 18)

  /** One statement of the round body, `x[target] ^= R(x[p] + x[q], s)`,
      with `mix` the rotation by `s` of the sum. */
  datatype Stmt = Stmt(target: Index, p: Index, q: Index, mix: Mixer)
  {
    /** The statement does not read the slot it writes. */
    predicate ReadsOthers()
    {
      target != p && target != q
    }
  }

  /** Every statement of `body` reads only slots other than the one it writes. */
  predicate AllReadOthers(body: seq<Stmt>)
  {
    forall i :: 0 <= i < |body| ==> body[i].ReadsOthers()
  }

  /** Executes one statement on the state. */
  function Step(x: State, st: Stmt): State
    requires st.ReadsOthers()
  {
    x[st.target := WordXor(x[st.target], st.mix(x[st.p], x[st.q]))]
  }

  /** A statement reads only slots it does not write, so running it twice
      restores the state. */
  lemma StepSelfInverse(x: State, st: Stmt)
    requires st.ReadsOthers()
    ensures Step(Step(x, st), st) == x
  {
    WordXorCancel(x[st.target], st.mix(x[st.p], x[st.q]));
    var z := Step(Step(x, st), st);
    assert forall i :: 0 <= i < 16 ==> z[i] == x[i];
  }

  /** Executes the statements of `body` in order, each seeing the state the
      previous one left. */
  function Run(x: State, body: seq<Stmt>): State
    requires AllReadOthers(body)
    decreases |body|
  {
    if body == [] then x else Run(Step(x, body[0]), body[1..])
  }

  /** Running two statement lists back to back is running their concatenation. */
  lemma {:induction false} RunAppend(x: State, first: seq<Stmt>, second: seq<Stmt>)
    requires AllReadOthers(first) && AllReadOthers(second)
    ensures AllReadOthers(first + second)
    ensures Run(x, first + second) == Run(Run(x, first), second)
    decreases |first|
  {
    if first != [] {
      assert (first + second)[0] == first[0];
      assert (first + second)[1..] == first[1..] + second;
      RunAppend(Step(x, first[0]), first[1..], second);
    } else {
      assert first + second == second;
    }
  }

  /** The statements of `body` in reverse order. */
  function Reverse(body: seq<Stmt>): (r: seq<Stmt>)
    ensures |r| == |body|
    ensures forall i :: 0 <= i < |body| ==> r[i] == body[|body| - 1 - i]
  {
    if body == [] then [] else Reverse(body[1..]) + [body[0]]
  }

  /** Running the statements in reverse order undoes running them, so every
      statement list of this shape computes a bijection on states. */
  lemma {:induction false} RunReverseUndoes(x: State, body: seq<Stmt>)
    requires AllReadOthers(body)
    ensures AllReadOthers(Reverse(body))
    ensures Run(Run(x, body), Reverse(body)) == x
    decreases |body|
  {
    if body != [] {
      var st := body[0];
      var y := Step(x, st);
      RunReverseUndoes(y, body[1..]);
      RunAppend(Run(y, body[1..]), Reverse(body[1..]), [st]);
      StepSelfInverse(x, st);
    }
  }

  /** Reversing twice gives the statement list back. */
  lemma ReverseReverse(body: seq<Stmt>)
    ensures Reverse(Reverse(body)) == body
  {
  }

  /** The statement table of one iteration of the source's round loop: a
      column round (four quarter-rounds down the columns) and then a row
      round (four quarter-rounds along the rows), in the source's order. */
  const DOUBLE_ROUND: seq<Stmt> := [
    Stmt(4, 0, 12, Mix7), Stmt(8, 4, 0, Mix9), Stmt(12, 8, 4, Mix13), Stmt(0, 12, 8, Mix18),
    Stmt(9, 5, 1, Mix7), Stmt(13, 9, 5, Mix9), Stmt(1, 13, 9, Mix13), Stmt(5, 1, 13, Mix18),
    Stmt(14, 10, 6, Mix7), Stmt(2, 14, 10, Mix9), Stmt(6, 2, 14, Mix13), Stmt(10, 6, 2, Mix18),
    Stmt(3, 15, 11, Mix7), Stmt(7, 3, 15, Mix9), Stmt(11, 7, 3, Mix13), Stmt(15, 11, 7, Mix18),
    Stmt(1, 0, 3, Mix7), Stmt(2, 1, 0, Mix9), Stmt(3, 2, 1, Mix13), Stmt(0, 3, 2, Mix18),
    Stmt(6, 5, 4, Mix7), Stmt(7, 6, 5, Mix9), Stmt(4, 7, 6, Mix13), Stmt(5, 4, 7, Mix18),
    Stmt(11, 10, 9, Mix7), Stmt(8, 11, 10, Mix9), Stmt(9, 8, 11, Mix13), Stmt(10, 9, 8, Mix18),
    Stmt(12, 15, 14, Mix7), Stmt(13, 12, 15, Mix9), Stmt(14, 13, 12, Mix13), Stmt(15, 14, 13, Mix18)
  ]

  lemma DoubleRoundWellFormed()
    ensures AllReadOthers(DOUBLE_ROUND)
  {
  }

  /** One double round. */
  function DoubleRound(x: State): State
  {
    DoubleRoundWellFormed();
    Run(x, DOUBLE_ROUND)
  }

  /** The double round undone: the statement table run backwards. */
  function DoubleRoundInverse(x: State): (r: State)
    ensures DoubleRound(r) == x
  {
    DoubleRoundWellFormed();
    RunReverseUndoes(x, DOUBLE_ROUND);
    RunReverseUndoes(x, Reverse(DOUBLE_ROUND));
    ReverseReverse(DOUBLE_ROUND);
    Run(x, Reverse(DOUBLE_ROUND))
  }

  /** Undoing a double round after running it restores the state. */
  lemma DoubleRoundInverseUndoes(x: State)
    ensures DoubleRoundInverse(DoubleRound(x)) == x
  {
    DoubleRoundWellFormed();
    RunReverseUndoes(x, DOUBLE_ROUND);
  }

  /** Four words of the state taken together by one quarter-round. */
  datatype Quad = Quad(a: Word, b: Word, c: Word, d: Word)

  /** The quarter-round of section 3 of the Salsa20 specification, on four
      words `(a, b, c, d)` = `(y0, y1, y2, y3)`: each word in turn, starting
      at `b`, is xor-ed with the rotated sum of the two words before it. */
  function QuarterRound(y: Quad): Quad
  {
    var b := WordXor(y.b, Mix7(y.a, y.d));
    var c := WordXor(y.c, Mix9(b, y.a));
    var d := WordXor(y.d, Mix13(c, b));
    var a := WordXor(y.a, Mix18(d, c));
    Quad(a, b, c, d)
  }

  /** The four statements the source writes for one quarter-round on the
      slots `a, b, c, d`. */
  function QuarterRoundStmts(a: Index, b: Index, c: Index, d: Index): seq<Stmt>
  {
    [Stmt(b, a, d, Mix7), Stmt(c, b, a, Mix9), Stmt(d, c, b, Mix13), Stmt(a, d, c, Mix18)]
  }

  predicate Distinct(a: Index, b: Index, c: Index, d: Index)
  {
    a != b && a != c && a != d && b != c && b != d && c != d
  }

  /** The state with the four words of `q` stored into the slots `a, b, c, d`. */
  function Put(x: State, a: Index, b: Index, c: Index, d: Index, q: Quad): State
  {
    x[b := q.b][c := q.c][d := q.d][a := q.a]
  }

  /** Running the four statements of a quarter-round on four distinct slots
      stores the quarter-round of their words back into them and leaves
      every other slot alone. */
  lemma QuarterRoundStmtsMatch(x: State, a: Index, b: Index, c: Index, d: Index)
    requires Distinct(a, b, c, d)
    ensures AllReadOthers(QuarterRoundStmts(a, b, c, d))
    ensures Run(x, QuarterRoundStmts(a, b, c, d)) ==
            Put(x, a, b, c, d, QuarterRound(Quad(x[a], x[b], x[c], x[d])))
  {
    var body := QuarterRoundStmts(a, b, c, d);
    var x1 := Step(x, body[0]);
    var x2 := Step(x1, body[1]);
    var x3 := Step(x2, body[2]);
    var x4 := Step(x3, body[3]);
    assert Run(x, body) == Run(x1, body[1..]);
    assert Run(x1, body[1..]) == Run(x2, body[2..]);
    assert Run(x2, body[2..]) == Run(x3, body[3..]);
    assert Run(x3, body[3..]) == Run(x4, body[4..]);
    var q := QuarterRound(Quad(x[a], x[b], x[c], x[d]));
    assert x1 == x[b := q.b];
    assert x2 == x[b := q.b][c := q.c];
    assert x3 == x[b := q.b][c := q.c][d := q.d];
  }

  /** Stores four quads into the four columns, each starting on its
      diagonal word: `(y0, y4, y8, y12)`, `(y5, y9, y13, y1)`,
      `(y10, y14, y2, y6)` and `(y15, y3, y7, y11)`. */
  function PutColumns(x: State, q0: Quad, q1: Quad, q2: Quad, q3: Quad): State
  {
    Put(Put(Put(Put(x, 0, 4, 8, 12, q0), 5, 9, 13, 1, q1), 10, 14, 2, 6, q2), 15, 3, 7, 11, q3)
  }

  /** Stores four quads into the four rows, each starting on its diagonal
      word: `(y0, y1, y2, y3)`, `(y5, y6, y7, y4)`, `(y10, y11, y8, y9)` and
      `(y15, y12, y13, y14)`. */
  function PutRows(x: State, q0: Quad, q1: Quad, q2: Quad, q3: Quad): State
  {
    Put(Put(Put(Put(x, 0, 1, 2, 3, q0), 5, 6, 7, 4, q1), 10, 11, 8, 9, q2), 15, 12, 13, 14, q3)
  }

  /** The column round of section 5 of the Salsa20 specification: each
      column quad, read from the input, is replaced by its quarter-round. */
  function ColumnRound(x: State): State
  {
    PutColumns(x, QuarterRound(Quad(x[0], x[4], x[8], x[12])),
                  QuarterRound(Quad(x[5], x[9], x[13], x[1])),
                  QuarterRound(Quad(x[10], x[14], x[2], x[6])),
                  QuarterRound(Quad(x[15], x[3], x[7], x[11])))
  }

  /** The row round of section 4 of the Salsa20 specification: each row
      quad, read from the input, is replaced by its quarter-round. */
  function RowRound(x: State): State
  {
    PutRows(x, QuarterRound(Quad(x[0], x[1], x[2], x[3])),
               QuarterRound(Quad(x[5], x[6], x[7], x[4])),
               QuarterRound(Quad(x[10], x[11], x[8], x[9])),
               QuarterRound(Quad(x[15], x[12], x[13], x[14])))
  }

  /** The statements of the four column quarter-rounds. */
  const COLUMN_STMTS: seq<Stmt> :=
    QuarterRoundStmts(0, 4, 8, 12) + QuarterRoundStmts(5, 9, 13, 1) +
    QuarterRoundStmts(10, 14, 2, 6) + QuarterRoundStmts(15, 3, 7, 11)

  /** The statements of the four row quarter-rounds. */
  const ROW_STMTS: seq<Stmt> :=
    QuarterRoundStmts(0, 1, 2, 3) + QuarterRoundStmts(5, 6, 7, 4) +
    QuarterRoundStmts(10, 11, 8, 9) + QuarterRoundStmts(15, 12, 13, 14)

  /** The statement table is the four column quarter-rounds followed by the
      four row quarter-rounds. */
  lemma DoubleRoundTableShape()
    ensures DOUBLE_ROUND == COLUMN_STMTS + ROW_STMTS
  {
  }

  /** Four statement lists run back to back. */
  lemma RunFour(x: State, s0: seq<Stmt>, s1: seq<Stmt>, s2: seq<Stmt>, s3: seq<Stmt>)
    requires AllReadOthers(s0) && AllReadOthers(s1) && AllReadOthers(s2) && AllReadOthers(s3)
    ensures AllReadOthers(s0 + s1 + s2 + s3)
    ensures Run(x, s0 + s1 + s2 + s3) == Run(Run(Run(Run(x, s0), s1), s2), s3)
  {
    RunAppend(x, s0, s1);
    RunAppend(x, s0 + s1, s2);
    RunAppend(x, s0 + s1 + s2, s3);
  }

  /** The column statements are the four column quarter-rounds run in turn. */
  lemma ColumnStmtsSplit(x: State)
    ensures AllReadOthers(COLUMN_STMTS)
    ensures AllReadOthers(QuarterRoundStmts(0, 4, 8, 12)) && AllReadOthers(QuarterRoundStmts(5, 9, 13, 1))
    ensures AllReadOthers(QuarterRoundStmts(10, 14, 2, 6)) && AllReadOthers(QuarterRoundStmts(15, 3, 7, 11))
    ensures Run(x, COLUMN_STMTS) ==
      Run(Run(Run(Run(x, QuarterRoundStmts(0, 4, 8, 12)), QuarterRoundStmts(5, 9, 13, 1)),
          QuarterRoundStmts(10, 14, 2, 6)), QuarterRoundStmts(15, 3, 7, 11))
  {
    RunFour(x, QuarterRoundStmts(0, 4, 8, 12), QuarterRoundStmts(5, 9, 13, 1),
            QuarterRoundStmts(10, 14, 2, 6), QuarterRoundStmts(15, 3, 7, 11));
  }

  /** Four quarter-rounds applied in turn down the columns, each reading its
      quad from the state the previous one left, give the column round. */
  lemma ColumnChain(x: State, x1: State, x2: State, x3: State, x4: State)
    requires x1 == Put(x, 0, 4, 8, 12, QuarterRound(Quad(x[0], x[4], x[8], x[12])))
    requires x2 == Put(x1, 5, 9, 13, 1, QuarterRound(Quad(x1[5], x1[9], x1[13], x1[1])))
    requires x3 == Put(x2, 10, 14, 2, 6, QuarterRound(Quad(x2[10], x2[14], x2[2], x2[6])))
    requires x4 == Put(x3, 15, 3, 7, 11, QuarterRound(Quad(x3[15], x3[3], x3[7], x3[11])))
    ensures x4 == ColumnRound(x)
  {
    assert Quad(x1[5], x1[9], x1[13], x1[1]) == Quad(x[5], x[9], x[13], x[1]);
    assert Quad(x2[10], x2[14], x2[2], x2[6]) == Quad(x[10], x[14], x[2], x[6]);
    assert Quad(x3[15], x3[3], x3[7], x3[11]) == Quad(x[15], x[3], x[7], x[11]);
  }

  /** The first half of the statement table computes the column round. */
  lemma ColumnStmtsMatch(x: State)
    ensures AllReadOthers(COLUMN_STMTS)
    ensures Run(x, COLUMN_STMTS) == ColumnRound(x)
  {
    ColumnStmtsSplit(x);
    QuarterRoundStmtsMatch(x, 0, 4, 8, 12);
    var x1 := Run(x, QuarterRoundStmts(0, 4, 8, 12));
    QuarterRoundStmtsMatch(x1, 5, 9, 13, 1);
    var x2 := Run(x1, QuarterRoundStmts(5, 9, 13, 1));
    QuarterRoundStmtsMatch(x2, 10, 14, 2, 6);
    var x3 := Run(x2, QuarterRoundStmts(10, 14, 2, 6));
    QuarterRoundStmtsMatch(x3, 15, 3, 7, 11);
    ColumnChain(x, x1, x2, x3, Run(x3, QuarterRoundStmts(15, 3, 7, 11)));
  }

  /** The row statements are the four row quarter-rounds run in turn. */
  lemma RowStmtsSplit(x: State)
    ensures AllReadOthers(ROW_STMTS)
    ensures AllReadOthers(QuarterRoundStmts(0, 1, 2, 3)) && AllReadOthers(QuarterRoundStmts(5, 6, 7, 4))
    ensures AllReadOthers(QuarterRoundStmts(10, 11, 8, 9)) && AllReadOthers(QuarterRoundStmts(15, 12, 13, 14))
    ensures Run(x, ROW_STMTS) ==
      Run(Run(Run(Run(x, QuarterRoundStmts(0, 1, 2, 3)), QuarterRoundStmts(5, 6, 7, 4)),
          QuarterRoundStmts(10, 11, 8, 9)), QuarterRoundStmts(15, 12, 13, 14))
  {
    RunFour(x, QuarterRoundStmts(0, 1, 2, 3), QuarterRoundStmts(5, 6, 7, 4),
            QuarterRoundStmts(10, 11, 8, 9), QuarterRoundStmts(15, 12, 13, 14));
  }

  /** Four quarter-rounds applied in turn along the rows, each reading its
      quad from the state the previous one left, give the row round. */
  lemma RowChain(x: State, x1: State, x2: State, x3: State, x4: State)
    requires x1 == Put(x, 0, 1, 2, 3, QuarterRound(Quad(x[0], x[1], x[2], x[3])))
    requires x2 == Put(x1, 5, 6, 7, 4, QuarterRound(Quad(x1[5], x1[6], x1[7], x1[4])))
    requires x3 == Put(x2, 10, 11, 8, 9, QuarterRound(Quad(x2[10], x2[11], x2[8], x2[9])))
    requires x4 == Put(x3, 15, 12, 13, 14, QuarterRound(Quad(x3[15], x3[12], x3[13], x3[14])))
    ensures x4 == RowRound(x)
  {
    assert Quad(x1[5], x1[6], x1[7], x1[4]) == Quad(x[5], x[6], x[7], x[4]);
    assert Quad(x2[10], x2[11], x2[8], x2[9]) == Quad(x[10], x[11], x[8], x[9]);
    assert Quad(x3[15], x3[12], x3[13], x3[14]) == Quad(x[15], x[12], x[13], x[14]);
  }

  /** The second half of the statement table computes the row round. */
  lemma RowStmtsMatch(x: State)
    ensures AllReadOthers(ROW_STMTS)
    ensures Run(x, ROW_STMTS) == RowRound(x)
  {
    RowStmtsSplit(x);
    QuarterRoundStmtsMatch(x, 0, 1, 2, 3);
    var x1 := Run(x, QuarterRoundStmts(0, 1, 2, 3));
    QuarterRoundStmtsMatch(x1, 5, 6, 7, 4);
    var x2 := Run(x1, QuarterRoundStmts(5, 6, 7, 4));
    QuarterRoundStmtsMatch(x2, 10, 11, 8, 9);
    var x3 := Run(x2, QuarterRoundStmts(10, 11, 8, 9));
    QuarterRoundStmtsMatch(x3, 15, 12, 13, 14);
    RowChain(x, x1, x2, x3, Run(x3, QuarterRoundStmts(15, 12, 13, 14)));
  }

  /** The source's double round is the row round of the column round, as
      section 6 of the Salsa20 specification defines it. */
  lemma DoubleRoundIsRowOfColumn(x: State)
    ensures DoubleRound(x) == RowRound(ColumnRound(x))
  {
    DoubleRoundTableShape();
    ColumnStmtsMatch(x);
    RowStmtsMatch(ColumnRound(x));
    RunAppend(x, COLUMN_STMTS, ROW_STMTS);
  }

  /** `n` double rounds, as the source's loop `for (i = 0; i < rounds; i++)`. */
  function DoubleRounds(n: nat, x: State): State
    decreases n
  {
    if n == 0 then x else DoubleRounds(n - 1, DoubleRound(x))
  }

  /** `n` double rounds undone. */
  function DoubleRoundsInverse(n: nat, x: State): State
    decreases n
  {
    if n == 0 then x else DoubleRoundInverse(DoubleRoundsInverse(n - 1, x))
  }

  /** Running `n` double rounds after undoing them restores the state, and
      undoing them after running them restores it too: the round function is
      a permutation of the 2^512 states. */
  lemma {:induction false} DoubleRoundsInvertible(n: nat, x: State)
    ensures DoubleRounds(n, DoubleRoundsInverse(n, x)) == x
    ensures DoubleRoundsInverse(n, DoubleRounds(n, x)) == x
    decreases n
  {
    if n > 0 {
      DoubleRoundsInvertible(n - 1, x);
      DoubleRoundsInvertible(n - 1, DoubleRound(x));
      DoubleRoundInverseUndoes(x);
    }
  }

  /** The last of `n + 1` double rounds can be split off at the end. */
  lemma {:induction false} DoubleRoundsAfter(n: nat, x: State)
    ensures DoubleRounds(n + 1, x) == DoubleRound(DoubleRounds(n, x))
    decreases n
  {
    if n > 0 {
      DoubleRoundsAfter(n - 1, DoubleRound(x));
    }
  }

  /** Two states that agree after `n` double rounds were equal before them. */
  lemma DoubleRoundsInjective(n: nat, x: State, y: State)
    requires DoubleRounds(n, x) == DoubleRounds(n, y)
    ensures x == y
  {
    DoubleRoundsInvertible(n, x);
    DoubleRoundsInvertible(n, y);
  }

  /** The Salsa20 core with `n` double rounds: the permuted state plus the
      input, word by word modulo 2^32. */
  function Salsa20(n: nat, input: State): State
  {
    var x := DoubleRounds(n, input);
    seq(16, i requires 0 <= i < 16 => Add(x[i], input[i]))
  }

  /** The source's round loop, `for (i = 0; i < rounds; i++)`, on a scratch
      copy of the input. */
  method RoundLoop(rounds: nat, ina: State) returns (x: State)
    ensures x == DoubleRounds(rounds, ina)
  {
    x := ina;
    var i := 0;
    while i < rounds
      invariant 0 <= i <= rounds
      invariant DoubleRounds(rounds - i, x) == DoubleRounds(rounds, ina)
    {
      x := DoubleRound(x);
      i := i + 1;
    }
  }

  /** The source's final loop, storing scratch word plus input word into
      each slot of the result. */
  method FeedForwardLoop(x: State, ina: State) returns (ret: State)
    ensures forall k :: 0 <= k < 16 ==> ret[k] == Add(x[k], ina[k])
  {
    var out: seq<Word> := [];
    var j := 0;
    while j < 16
      invariant 0 <= j <= 16 && |out| == j
      invariant forall k :: 0 <= k < j ==> out[k] == Add(x[k], ina[k])
    {
      out := out + [Add(x[j], ina[j])];
      j := j + 1;
    }
    ret := out;
  }

  /** `coreFunc(ina, ret)` of the source: copy the input into scratch words,
      run the round loop on the scratch copy, then store scratch plus input
      into the result. The input is a value and is not changed. */
  method CoreFunc(rounds: nat, ina: State) returns (ret: State)
    ensures ret == Salsa20(rounds, ina)
  {
    var x := RoundLoop(rounds, ina);
    ret := FeedForwardLoop(x, ina);
  }
}

=== FILE: counter.dfy ===
/** The 64-bit block counter: two words `counter[0]` (low) and `counter[1]`
    (high) of a `Uint32Array(2)`. */
module BlockCounter {
  import opened Words

  datatype Counter = Counter(lo: Word, hi: Word)

  /** A fresh counter, and the one `_counterReset` restores. */
  const ZERO: Counter := Counter(0, 0)

  /** The 64-bit number the two words stand for. */
  function Value(c: Counter): bv64
  {
    ((c.hi as bv64) << 32) | (c.lo as bv64)
  }

  /** `_counterInc`: add one to the low word, which wraps in the
      `Uint32Array`; if it wrapped to zero, add one to the high word. */
  function Inc(c: Counter): (r: Counter)
    ensures Value(r) == Value(c) + 1
  {
    var lo := Add(c.lo, 1);
    if lo == 0 then Counter(lo, Add(c.hi, 1)) else Counter(lo, c.hi)
  }

  /** The counter after `k` blocks. */
  function IncN(c: Counter, k: nat): Counter
    decreases k
  {
    if k == 0 then c else IncN(Inc(c), k - 1)
  }

  /** Two values of the counter are equal exactly when their words are. */
  lemma ValueInjective(c: Counter, d: Counter)
    ensures Value(c) == Value(d) <==> c == d
  {
  }

  /** Running on by `a` blocks and then `b` more is running on by `a + b`. */
  lemma {:induction false} IncNAdd(c: Counter, a: nat, b: nat)
    ensures IncN(IncN(c, a), b) == IncN(c, a + b)
    decreases a
  {
    if a > 0 {
      IncNAdd(Inc(c), a - 1, b);
    }
  }

  /** One more block is one more increment at the end. */
  lemma {:induction false} IncNSnoc(c: Counter, k: nat)
    ensures IncN(c, k + 1) == Inc(IncN(c, k))
  {
    IncNAdd(c, k, 1);
  }

  /** Producing a block always moves the counter. */
  lemma IncMoves(c: Counter)
    ensures Inc(c) != c
  {
    assert Value(Inc(c)) != Value(c);
  }

  /** Eight bytes read as the two little-endian counter words, as
      `new Uint32Array(nonce.slice(8, 16))` does. */
  function FromBytes(bs: seq<Byte>): (r: Counter)
    requires |bs| == 8
    ensures BytesLE([r.lo, r.hi]) == bs
  {
    var c := Counter(WordLE(bs[0], bs[1], bs[2], bs[3]), WordLE(bs[4], bs[5], bs[6], bs[7]));
    LEOfWordLE(bs[0], bs[1], bs[2], bs[3]);
    LEOfWordLE(bs[4], bs[5], bs[6], bs[7]);
    assert BytesLE([c.lo, c.hi]) == LE(c.lo) + BytesLE([c.hi]);
    c
  }
}

=== FILE: expansion.dfy ===
/** The key-expansion template of section 9 of Bernstein's "Salsa20
    specification": four constant words, the key, the nonce and two counter
    slots, laid out in the 16-word input of the core. */
module Expansion {
  import opened Words
  import opened Core
  import opened Host
  import opened BlockCounter

  /** The text "expand 32-byte k" in ASCII. */
  const EXPAND_32: seq<Byte> :=
    [0x65, 0x78, 0x70, 0x61, 0x6e, 0x64, 0x20, 0x33, 0x32, 0x2d, 0x62, 0x79, 0x74, 0x65, 0x20, 0x6b]

  /** The text "expand 16-byte k" in ASCII. */
  const EXPAND_16: seq<Byte> :=
    [0x65, 0x78, 0x70, 0x61, 0x6e, 0x64, 0x20, 0x31, 0x36, 0x2d, 0x62, 0x79, 0x74, 0x65, 0x20, 0x6b]

  /** The byte constant spells its text. */
  lemma Expand32Text()
    ensures forall i :: 0 <= i < 16 ==> EXPAND_32[i] as int == "expand 32-byte k"[i] as int
  {
  }

  /** The byte constant spells its text. */
  lemma Expand16Text()
    ensures forall i :: 0 <= i < 16 ==> EXPAND_16[i] as int == "expand 16-byte k"[i] as int
  {
  }

  /** The constants `sigma` of the 32-byte key fill. */
  const SIGMA: seq<Word> := [0x61707865, 0x3320646e, 0x79622d32, 0x6b206574]

  /** The constants `tau` of the 16-byte key fill. */
  const TAU: seq<Word> := [0x61707865, 0x3120646e, 0x79622d36, 0x6b206574]

  /** The state left in slots 8 and 9 before any block is generated. */
  const BLANK: State := [0, 0, 0, 0, 0, 0, 0, 0, 0, 0, 0, 0, 0, 0, 0, 0]

  /** A template fill: constants in slots 0, 5, 10 and 15, the first key
      half in slots 1-4, the nonce in slots 6-7, the second key half in
      slots 11-14. Slots 8 and 9 are not written and keep what the buffer
      held. */
  function Fill(buf: State, k: seq<Word>, nonce: seq<Word>, key0: seq<Word>, key1: seq<Word>): (r: State)
    requires |k| == 4 && |nonce| == 2 && |key0| == 4 && |key1| == 4
    ensures r[0] == k[0] && r[5] == k[1] && r[10] == k[2] && r[15] == k[3]
    ensures r[1..5] == key0 && r[11..15] == key1
    ensures r[6] == nonce[0] && r[7] == nonce[1]
    ensures r[8] == buf[8] && r[9] == buf[9]
  {
    [k[0]] + key0 + [k[1]] + nonce + buf[8..10] + [k[2]] + key1 + [k[3]]
  }

  /** `_salsa20BufferFillKey8`: sigma, key words 0-3, nonce, key words 4-7. */
  function FillKey8(buf: State, nonce: seq<Word>, key: seq<Word>): State
    requires |nonce| == 2 && |key| == 8
  {
    Fill(buf, SIGMA, nonce, key[..4], key[4..])
  }

  /** `_salsa20BufferFillKey4`: tau, and key words 0-3 in both key halves. */
  function FillKey4(buf: State, nonce: seq<Word>, key: seq<Word>): State
    requires |nonce| == 2 && |key| == 4
  {
    Fill(buf, TAU, nonce, key, key)
  }

  /** `_salsa20ExpansionKey8` and `_salsa20ExpansionKey4` before calling the
      core: the counter words go into slots 8 and 9, the rest stays. */
  function WithCounter(t: State, c: Counter): (r: State)
    ensures r[8] == c.lo && r[9] == c.hi
    ensures forall i :: 0 <= i < 16 && i != 8 && i != 9 ==> r[i] == t[i]
  {
    t[..8] + [c.lo, c.hi] + t[10..]
  }

  /** `_initialize` on the canonical object: the nonce (8 bytes) and key
      bytes are read as little-endian words; a 32-byte key takes the sigma
      fill and a 16-byte key the tau fill; any other length throws. */
  function Initialize(nonce: seq<Byte>, key: seq<Byte>): (r: Result<State>)
    requires |nonce| == 8
    ensures r.Success? <==> |key| == 16 || |key| == 32
    ensures r.Failure? ==> r.error == InvalidKeyLength
  {
    if |key| == 32 then Success(FillKey8(BLANK, WordsLE(nonce), WordsLE(key)))
    else if |key| == 16 then Success(FillKey4(BLANK, WordsLE(nonce), WordsLE(key)))
    else Failure(InvalidKeyLength)
  }

  /** The 64 input bytes of section 9 for a 32-byte key `k` and a 16-byte
      `n` (nonce, then block number little-endian): the text
      "expand 32-byte k" cut into four, with `k` and `n` between the pieces. */
  function Section9Input32(k: seq<Byte>, n: seq<Byte>): (bs: seq<Byte>)
    requires |k| == 32 && |n| == 16
    ensures |bs| == 64
  {
    var s := EXPAND_32;
    s[0..4] + k[0..16] + s[4..8] + n + s[8..12] + k[16..32] + s[12..16]
  }

  /** The same for a 16-byte key, repeated, around "expand 16-byte k". */
  function Section9Input16(k: seq<Byte>, n: seq<Byte>): (bs: seq<Byte>)
    requires |k| == 16 && |n| == 16
    ensures |bs| == 64
  {
    var t := EXPAND_16;
    t[0..4] + k + t[4..8] + n + t[8..12] + k + t[12..16]
  }

  /** Reading a concatenation as words reads each part. */
  lemma {:induction false} WordsLEAppend(a: seq<Byte>, b: seq<Byte>)
    requires |a| % 4 == 0 && |b| % 4 == 0
    ensures WordsLE(a + b) == WordsLE(a) + WordsLE(b)
    decreases |a|
  {
    if a != [] {
      assert (a + b)[4..] == a[4..] + b;
      WordsLEAppend(a[4..], b);
    } else {
      assert a + b == b;
    }
  }

  /** The four pieces of "expand 32-byte k" are the sigma words. */
  lemma SigmaSpellsExpand32()
    ensures WordsLE(EXPAND_32[0..4]) == [SIGMA[0]] && WordsLE(EXPAND_32[4..8]) == [SIGMA[1]]
    ensures WordsLE(EXPAND_32[8..12]) == [SIGMA[2]] && WordsLE(EXPAND_32[12..16]) == [SIGMA[3]]
  {
  }

  /** The four pieces of "expand 16-byte k" are the tau words. */
  lemma TauSpellsExpand16()
    ensures WordsLE(EXPAND_16[0..4]) == [TAU[0]] && WordsLE(EXPAND_16[4..8]) == [TAU[1]]
    ensures WordsLE(EXPAND_16[8..12]) == [TAU[2]] && WordsLE(EXPAND_16[12..16]) == [TAU[3]]
  {
  }

  /** A filled template with the counter written in, as one concatenation. */
  lemma FillWithCounter(buf: State, k: seq<Word>, nonce: seq<Word>, key0: seq<Word>, key1: seq<Word>, c: Counter)
    requires |k| == 4 && |nonce| == 2 && |key0| == 4 && |key1| == 4
    ensures WithCounter(Fill(buf, k, nonce, key0, key1), c)
         == [k[0]] + key0 + [k[1]] + nonce + [c.lo, c.hi] + [k[2]] + key1 + [k[3]]
  {
    var t := Fill(buf, k, nonce, key0, key1);
    assert t[..8] == [k[0]] + key0 + [k[1]] + nonce;
    assert t[10..] == [k[2]] + key1 + [k[3]];
  }

  /** Reading seven pieces as words reads each piece. */
  lemma WordsLESeven(p0: seq<Byte>, p1: seq<Byte>, p2: seq<Byte>, p3: seq<Byte>, p4: seq<Byte>, p5: seq<Byte>, p6: seq<Byte>)
    requires |p0| % 4 == 0 && |p1| % 4 == 0 && |p2| % 4 == 0 && |p3| % 4 == 0
    requires |p4| % 4 == 0 && |p5| % 4 == 0 && |p6| % 4 == 0
    ensures WordsLE(p0 + p1 + p2 + p3 + p4 + p5 + p6)
         == WordsLE(p0) + WordsLE(p1) + WordsLE(p2) + WordsLE(p3) + WordsLE(p4) + WordsLE(p5) + WordsLE(p6)
  {
    WordsLEAppend(p0, p1);
    WordsLEAppend(p0 + p1, p2);
    WordsLEAppend(p0 + p1 + p2, p3);
    WordsLEAppend(p0 + p1 + p2 + p3, p4);
    WordsLEAppend(p0 + p1 + p2 + p3 + p4, p5);
    WordsLEAppend(p0 + p1 + p2 + p3 + p4 + p5, p6);
  }

  /** The two halves of a 32-byte key read as key words 0-3 and 4-7. */
  lemma KeyHalves(key: seq<Byte>)
    requires |key| == 32
    ensures WordsLE(key[0..16]) == WordsLE(key)[..4] && WordsLE(key[16..32]) == WordsLE(key)[4..]
  {
    assert key == key[0..16] + key[16..32];
    WordsLEAppend(key[0..16], key[16..32]);
  }

  /** The nonce followed by the serialised counter reads as the nonce words
      and the counter words. */
  lemma NonceAndCounter(nonce: seq<Byte>, c: Counter)
    requires |nonce| == 8
    ensures WordsLE(nonce + BytesLE([c.lo, c.hi])) == WordsLE(nonce) + [c.lo, c.hi]
  {
    WordsLEAppend(nonce, BytesLE([c.lo, c.hi]));
    WordsOfBytesLE([c.lo, c.hi]);
  }

  /** The canonical 32-byte template, with the counter in slots 8-9, is the
      section 9 input for that key, nonce and block number read as
      little-endian words. */
  lemma Section9Key8(buf: State, nonce: seq<Byte>, key: seq<Byte>, c: Counter)
    requires |nonce| == 8 && |key| == 32
    ensures WordsLE(Section9Input32(key, nonce + BytesLE([c.lo, c.hi])))
         == WithCounter(FillKey8(buf, WordsLE(nonce), WordsLE(key)), c)
  {
    var s := EXPAND_32;
    WordsLESeven(s[0..4], key[0..16], s[4..8], nonce + BytesLE([c.lo, c.hi]), s[8..12], key[16..32], s[12..16]);
    KeyHalves(key);
    NonceAndCounter(nonce, c);
    SigmaSpellsExpand32();
    FillWithCounter(buf, SIGMA, WordsLE(nonce), WordsLE(key)[..4], WordsLE(key)[4..], c);
  }

  /** The canonical 16-byte template, with the counter in slots 8-9, is the
      section 9 input for that key, nonce and block number. */
  lemma Section9Key4(buf: State, nonce: seq<Byte>, key: seq<Byte>, c: Counter)
    requires |nonce| == 8 && |key| == 16
    ensures WordsLE(Section9Input16(key, nonce + BytesLE([c.lo, c.hi])))
         == WithCounter(FillKey4(buf, WordsLE(nonce), WordsLE(key)), c)
  {
    var t := EXPAND_16;
    WordsLESeven(t[0..4], key, t[4..8], nonce + BytesLE([c.lo, c.hi]), t[8..12], key, t[12..16]);
    NonceAndCounter(nonce, c);
    TauSpellsExpand16();
    FillWithCounter(buf, TAU, WordsLE(nonce), WordsLE(key), WordsLE(key), c);
  }
}

=== FILE: host.dfy ===
/** What the cipher sees of its JavaScript host: the errors it throws, the
    values a caller may pass, and the coercion of a binary argument into a
    byte sequence. */
module Host {
  import opened Words

  /** The exceptions the two cipher objects throw, one constructor per
      distinct failure. */
  datatype Error =
    | InvalidInput        // argument is not an accepted binary container
    | InvalidKey          // legacy `key()`: not an ArrayBuffer, or shorter than 24 bytes
    | InvalidKeyLength    // key is neither 16 nor 32 bytes
    | InvalidNonceLength  // nonce is neither 8 nor 16 bytes
    | InvalidRounds       // round option is not a positive integer
    | ConflictingRounds   // both `doubleRounds` and `rounds` were given
    | NotAnObject         // property read on `null` (a `TypeError`)
    | UndeclaredFunction  // call to a name that is never declared (a `ReferenceError`)
    | MethodMissing       // call to a method that is not, or no longer, bound

  /** Success or the exception thrown instead. */
  datatype Result<+T> = Success(value: T) | Failure(error: Error) {
    predicate IsFailure() {
      Failure?
    }

    function PropagateFailure<U>(): (r: Result<U>)
      requires Failure?
    {
      Failure(error)
    }

    function Extract(): T
      requires Success?
    {
      value
    }
  }

  /** A JavaScript scalar as far as the cipher inspects it. Numbers are
      finite; `NaN`, infinities, strings and booleans are not modelled. */
  datatype JsValue = Undefined | Null | Num(n: real) {
    /** JavaScript truthiness: only a non-zero number is truthy here. */
    predicate Truthy() {
      Num? && n != 0.0
    }
  }

  /** `Number.isInteger` on a finite number. */
  predicate IsInteger(r: real) {
    r == r.Floor as real
  }

  /** A value passed where the cipher expects binary data. The three binary
      kinds carry the bytes they view. */
  datatype HostValue =
    | ArrayBuffer(bytes: seq<Byte>)
    | Uint8View(bytes: seq<Byte>)
    | NodeBuffer(bytes: seq<Byte>)
    | NotBinary

  /** `inputarray`: accept an `ArrayBuffer`, a `Uint8Array` or a Node
      `Buffer` and return a copy of its bytes; anything else throws. */
  function InputArray(v: HostValue): (r: Result<seq<Byte>>)
    ensures r.Success? <==> (v.ArrayBuffer? || v.Uint8View? || v.NodeBuffer?)
    ensures r.Success? ==> r.value == v.bytes
    ensures r.Failure? ==> r.error == InvalidInput
  {
    match v
    case NotBinary => Failure(InvalidInput)
    case _ => Success(v.bytes)
  }

  /** What a call on binary data leaves behind: the buffer it returns and
      the contents of the caller's argument afterwards. */
  datatype Xored = Xored(returned: seq<Byte>, argument: seq<Byte>)
}

=== FILE: legacy.dfy ===
/** The legacy cipher object of the top-level `salsa20.js`: the same core,
    framed differently. The round count is clamped below at 10; `key` takes
    one buffer holding the nonce and then the key; every `encrypt` or
    `decrypt` restarts the counter at zero, generates `ceil(len / 64)`
    blocks, writes each word most significant byte first and xors the
    caller's buffer in place. Two declaration slips are modelled as they
    behave: the second `_salsa20BufferFillKey8` replaces the first, and
    `_salsa20BufferFillKey4` is never declared. */
module Legacy {
  import opened Words
  import opened Core
  import opened Host
  import opened BlockCounter
  import opened Expansion
  import opened Rounds
  import opened Stream

  /** Before `key`, and after it with the filled template. */
  datatype Stage = Unkeyed | Keyed(template: State)

  datatype Instance = Instance(doubleRounds: nat, stage: Stage)

  /** The keystream generator of a keyed object. */
  function Gen(s: Instance, order: Order): (gen: Generator)
    requires s.stage.Keyed?
    ensures Uniform(gen)
  {
    BlockGen(order, s.doubleRounds, s.stage.template)
  }

  /** `new _Salsa20(rounds)`: construction with `new`; a plain call is
      not modelled. */
  function New(rounds: JsValue): (s: Instance)
    ensures s.doubleRounds >= 10 && s.stage == Unkeyed
  {
    Instance(LegacyDoubleRounds(rounds), Unkeyed)
  }

  /** `_salsa20BufferFillKey8` as the program sees it: of the two function
      declarations with that name the later one is in force, and it is the
      16-byte fill, so tau is used and key words 0-3 fill both key halves. */
  function FillKey8AsWritten(buf: State, nonce: seq<Word>, key: seq<Word>): (r: State)
    requires |nonce| == 2 && |key| == 8
    ensures r[0] == TAU[0] && r[5] == TAU[1] && r[10] == TAU[2] && r[15] == TAU[3]
    ensures r[1..5] == key[..4] && r[11..15] == key[..4]
    ensures r[6] == nonce[0] && r[7] == nonce[1]
    ensures r[8] == buf[8] && r[9] == buf[9]
  {
    Fill(buf, TAU, nonce, key[..4], key[..4])
  }

  /** `_initialize` of the legacy object as written: a 32-byte key goes
      through the replaced fill; a 16-byte key reaches the call of the
      undeclared `_salsa20BufferFillKey4` and throws. */
  function InitializeAsWritten(nonce: seq<Byte>, key: seq<Byte>): (r: Result<State>)
    requires |nonce| == 8
    ensures r.Success? <==> |key| == 32
    ensures |key| == 16 ==> r == Failure(UndeclaredFunction)
  {
    if |key| == 32 then Success(FillKey8AsWritten(BLANK, WordsLE(nonce), WordsLE(key)))
    else if |key| == 16 then Failure(UndeclaredFunction)
    else Failure(InvalidKeyLength)
  }

  /** The key bytes `key` takes from its buffer: bytes 8-23 when the buffer
      is shorter than 40 bytes, bytes 8-39 otherwise. */
  function KeyBytes(b: seq<Byte>): (k: seq<Byte>)
    requires |b| >= 24
    ensures |b| < 40 ==> |k| == 16 && k == b[8..24]
    ensures |b| >= 40 ==> |k| == 32 && k == b[8..40]
  {
    if |b| < 40 then b[8..24] else b[8..40]
  }

  /** `key(buf)` as written: only while unkeyed; the buffer must be an
      `ArrayBuffer` of at least 24 bytes; bytes 0-7 are the nonce. */
  function Key(s: Instance, v: HostValue): (r: Result<Instance>)
    ensures !s.stage.Unkeyed? ==> r == Failure(MethodMissing)
    ensures s.stage.Unkeyed? && !v.ArrayBuffer? ==> r == Failure(InvalidKey)
    ensures s.stage.Unkeyed? && v.ArrayBuffer? && |v.bytes| < 24 ==> r == Failure(InvalidKey)
    ensures s.stage.Unkeyed? && v.ArrayBuffer? && 24 <= |v.bytes| < 40 ==> r == Failure(UndeclaredFunction)
    ensures s.stage.Unkeyed? && v.ArrayBuffer? && |v.bytes| >= 40 ==>
      r == Success(Instance(s.doubleRounds, Keyed(FillKey4(BLANK, WordsLE(v.bytes[..8]), WordsLE(v.bytes[8..24])))))
  {
    if !s.stage.Unkeyed? then Failure(MethodMissing)
    else if !v.ArrayBuffer? || |v.bytes| < 24 then Failure(InvalidKey)
    else
      var t :- InitializeAsWritten(v.bytes[..8], KeyBytes(v.bytes));
      assert |v.bytes| >= 40 ==> WordsLE(v.bytes[8..40])[..4] == WordsLE(v.bytes[8..24]) by {
        if |v.bytes| >= 40 {
          KeyHalves(v.bytes[8..40]);
          assert v.bytes[8..40][0..16] == v.bytes[8..24];
        }
      }
      Success(Instance(s.doubleRounds, Keyed(t)))
  }

  /** The blocks needed to cover `len` bytes, `Math.ceil(len / 64)`. */
  function CeilBlocks(len: nat): (b: nat)
    ensures len <= 64 * b < len + 64
  {
    DivideBy64(len + 63, (len + 63) / 64, (len + 63) % 64);
    (len + 63) / 64
  }

  /** `encrypt(buf)`, and `decrypt(buf)`, which is bound to the same
      function, as written: only once keyed, and only on an `ArrayBuffer`.
      The counter restarts at zero, so the object is left exactly as it
      was; the buffer is xor-ed in place with big-endian blocks and is
      itself returned. */
  function Encrypt(s: Instance, v: HostValue): (r: Result<(Instance, Xored)>)
    ensures !s.stage.Keyed? ==> r == Failure(MethodMissing)
    ensures s.stage.Keyed? ==> (r.Success? <==> v.ArrayBuffer?)
    ensures r.Failure? && s.stage.Keyed? ==> r.error == InvalidInput
    ensures r.Success? ==>
      var out := r.value.1.returned;
      r.value.0 == s && r.value.1.argument == out && |out| == |v.bytes| &&
      (forall i :: 0 <= i < |out| ==> out[i] == v.bytes[i] ^ StreamByte(Gen(s, BigEndian), ZERO, i))
  {
    if !s.stage.Keyed? then Failure(MethodMissing)
    else if !v.ArrayBuffer? then Failure(InvalidInput)
    else
      var data := v.bytes;
      var blocks := CeilBlocks(|data|);
      var ks := Keystream(Gen(s, BigEndian), ZERO, blocks);
      KeystreamAll(Gen(s, BigEndian), ZERO, blocks);
      var out := Combine(data, ks);
      Success((s, Xored(out, out)))
  }

  /** `_xorBuf` of the legacy object: reset the counter, run the core
      `ceil(len / 64)` times writing big-endian blocks, then xor. */
  method XorBuf(s: Instance, v: HostValue) returns (r: Result<(Instance, Xored)>)
    ensures r == Encrypt(s, v)
  {
    if !s.stage.Keyed? {
      return Failure(MethodMissing);
    }
    if !v.ArrayBuffer? {
      return Failure(InvalidInput);
    }
    var data := v.bytes;
    var ks, _ := GenerateKeystream(BigEndian, s.doubleRounds, s.stage.template, ZERO, CeilBlocks(|data|));
    var out := XorLoop(data, ks);
    r := Success((s, Xored(out, out)));
  }

  /** Decryption undoes encryption with no seek at all: every call starts
      the stream at counter zero, so passing the result through the same
      function gives the data back. */
  lemma RoundTrip(s: Instance, p: seq<Byte>)
    requires s.stage.Keyed?
    ensures var e := Encrypt(s, ArrayBuffer(p));
      e.Success? &&
      var d := Encrypt(e.value.0, ArrayBuffer(e.value.1.returned));
      d.Success? && d.value.1.returned == p
  {
    var ct := Encrypt(s, ArrayBuffer(p)).value.1.returned;
    var pt := Encrypt(s, ArrayBuffer(ct)).value.1.returned;
    forall i | 0 <= i < |p|
      ensures pt[i] == p[i]
    {
      ByteXorCancel(p[i], StreamByte(Gen(s, BigEndian), ZERO, i));
    }
  }

  /** Only the first 40 bytes of the key buffer matter. */
  lemma KeyIgnoresTail(s: Instance, b: seq<Byte>, b': seq<Byte>)
    requires |b| >= 40 && |b'| >= 40 && b[..40] == b'[..40]
    ensures Key(s, ArrayBuffer(b)) == Key(s, ArrayBuffer(b'))
  {
    assert b[..8] == b[..40][..8] && b'[..8] == b'[..40][..8];
    assert b[8..24] == b[..40][8..24] && b'[8..24] == b'[..40][8..24];
  }

  /** Finding: a 32-byte key is expanded with the 16-byte constants, and key
      bytes 16-31 (buffer bytes 24-39) have no effect. For instance, slot 5
      holds 0x3120646e where section 9 of the Salsa20 specification puts
      0x3320646e. */
  lemma KeyAsWrittenIgnoresUpperKey(s: Instance, b: seq<Byte>, b': seq<Byte>)
    requires s.stage.Unkeyed? && |b| >= 40 && |b'| >= 40 && b[..24] == b'[..24]
    ensures Key(s, ArrayBuffer(b)).Success?
    ensures Key(s, ArrayBuffer(b)) == Key(s, ArrayBuffer(b'))
    ensures Key(s, ArrayBuffer(b)).value.stage.template[5] == 0x3120646e != SIGMA[1]
  {
    assert b[..8] == b[..24][..8] && b'[..8] == b'[..24][..8];
    assert b[8..24] == b[..24][8..24] && b'[8..24] == b'[..24][8..24];
  }

  /** Finding: a key buffer of 24 to 39 bytes (a 16-byte key) always throws. */
  lemma ShortKeyAsWrittenThrows(s: Instance, b: seq<Byte>)
    requires s.stage.Unkeyed? && 24 <= |b| < 40
    ensures Key(s, ArrayBuffer(b)) == Failure(UndeclaredFunction)
  {
  }

  /** `key(buf)` as evidently intended: the fill matching the key length,
      that is the canonical `_initialize`. */
  function KeyIntended(s: Instance, v: HostValue): (r: Result<Instance>)
    ensures !s.stage.Unkeyed? ==> r == Failure(MethodMissing)
    ensures s.stage.Unkeyed? && (!v.ArrayBuffer? || |v.bytes| < 24) ==> r == Failure(InvalidKey)
    ensures s.stage.Unkeyed? && v.ArrayBuffer? && 24 <= |v.bytes| < 40 ==>
      r == Success(Instance(s.doubleRounds, Keyed(FillKey4(BLANK, WordsLE(v.bytes[..8]), WordsLE(v.bytes[8..24])))))
    ensures s.stage.Unkeyed? && v.ArrayBuffer? && |v.bytes| >= 40 ==>
      r == Success(Instance(s.doubleRounds, Keyed(FillKey8(BLANK, WordsLE(v.bytes[..8]), WordsLE(v.bytes[8..40])))))
  {
    if !s.stage.Unkeyed? then Failure(MethodMissing)
    else if !v.ArrayBuffer? || |v.bytes| < 24 then Failure(InvalidKey)
    else Success(Instance(s.doubleRounds, Keyed(Initialize(v.bytes[..8], KeyBytes(v.bytes)).value)))
  }

  /** The intended key setup yields the section 9 input for the key and
      nonce the buffer holds, for either key length. */
  lemma KeyIntendedIsSection9(s: Instance, b: seq<Byte>, c: Counter)
    requires s.stage.Unkeyed? && |b| >= 24
    ensures KeyIntended(s, ArrayBuffer(b)).Success?
    ensures var t := KeyIntended(s, ArrayBuffer(b)).value.stage.template;
      if |b| >= 40 then WithCounter(t, c) == WordsLE(Section9Input32(b[8..40], b[..8] + BytesLE([c.lo, c.hi])))
      else WithCounter(t, c) == WordsLE(Section9Input16(b[8..24], b[..8] + BytesLE([c.lo, c.hi])))
  {
    if |b| >= 40 {
      Section9Key8(BLANK, b[..8], b[8..40], c);
    } else {
      Section9Key4(BLANK, b[..8], b[8..24], c);
    }
  }

  /** Finding: the legacy stream writes words most significant byte first,
      where section 7 of the Salsa20 specification writes them least significant
      byte first. A block whose first word is 0x61707865 starts
      0x61, 0x70, 0x78, 0x65 instead of 0x65, 0x78, 0x70, 0x61. */
  lemma BigEndianDiffers(ws: seq<Word>)
    requires |ws| > 0
    ensures Serialize(BigEndian, ws)[0] == ByteOf(ws[0], 3)
    ensures Serialize(LittleEndian, ws)[0] == ByteOf(ws[0], 0)
    ensures ws[0] == 0x61707865 ==>
      Serialize(BigEndian, ws)[..4] == [0x61, 0x70, 0x78, 0x65] &&
      Serialize(LittleEndian, ws)[..4] == [0x65, 0x78, 0x70, 0x61]
  {
    BytesBEAt(ws, 0);
    BytesLEAt(ws, 0);
  }

  /** `encrypt(buf)` as evidently intended: the same framing with each word
      written least significant byte first. */
  function EncryptIntended(s: Instance, v: HostValue): (r: Result<(Instance, Xored)>)
    ensures !s.stage.Keyed? ==> r == Failure(MethodMissing)
    ensures s.stage.Keyed? ==> (r.Success? <==> v.ArrayBuffer?)
    ensures r.Success? ==>
      var out := r.value.1.returned;
      r.value.0 == s && r.value.1.argument == out && |out| == |v.bytes| &&
      (forall i :: 0 <= i < |out| ==> out[i] == v.bytes[i] ^ StreamByte(Gen(s, LittleEndian), ZERO, i))
  {
    if !s.stage.Keyed? then Failure(MethodMissing)
    else if !v.ArrayBuffer? then Failure(InvalidInput)
    else
      var data := v.bytes;
      var blocks := CeilBlocks(|data|);
      var ks := Keystream(Gen(s, LittleEndian), ZERO, blocks);
      KeystreamAll(Gen(s, LittleEndian), ZERO, blocks);
      var out := Combine(data, ks);
      Success((s, Xored(out, out)))
  }

  /** With the intended byte order, each keystream block read back as
      little-endian words is the core's output for that block, as section 7
      of the Salsa20 specification has it. */
  lemma IntendedBlockIsCoreOutput(s: Instance, c: Counter)
    requires s.stage.Keyed?
    ensures WordsLE(Gen(s, LittleEndian)(c)) == Salsa20(s.doubleRounds, WithCounter(s.stage.template, c))
  {
    BlockIsCoreOutput(s.doubleRounds, s.stage.template, c);
  }
}

=== FILE: rounds.dfy ===
/** The round option of the cipher constructor: how many double rounds the
    core runs, for the canonical object and for the legacy one. */
module Rounds {
  import opened Host

  /** The constructor's argument. `Scalar` is a bare value (`undefined`,
      `null` or a number); `Object` is an options object, with the two
      properties the cipher reads. */
  datatype Options =
    | Scalar(v: JsValue)
    | Object(doubleRounds: JsValue, rounds: JsValue)

  /** The canonical constructor: an absent argument becomes `{}`; a bare
      integer is the double-round count; otherwise the options object is
      read, where naming both properties throws, a truthy `doubleRounds` is
      taken as is and a truthy `rounds` is halved. The outcome must be a
      positive integer. A bare non-integer number reads as an object without
      either property, and `null` cannot have properties read from it. */
  function DetermineDoubleRounds(o: Options): (r: Result<nat>)
    ensures r.Success? ==> r.value > 0
    ensures r == Failure(ConflictingRounds) <==>
      o.Object? && o.doubleRounds != Undefined && o.rounds != Undefined
    ensures r == Failure(NotAnObject) <==> o == Scalar(Null)
    ensures r.Success? && r.value != 10 ==>
      (o.Scalar? && o.v == Num(r.value as real)) ||
      (o.Object? && o.doubleRounds == Num(r.value as real)) ||
      (o.Object? && o.rounds == Num(2.0 * r.value as real))
    ensures o.Scalar? && o.v.Num? && IsInteger(o.v.n) ==> r == Validate(o.v.n)
    ensures o.Scalar? && o.v != Null && !(o.v.Num? && IsInteger(o.v.n)) ==> r == Success(10)
    ensures o.Object? && o.rounds == Undefined && o.doubleRounds.Truthy() ==> r == Validate(o.doubleRounds.n)
    ensures o.Object? && o.doubleRounds == Undefined && o.rounds.Truthy() ==> r == Validate(o.rounds.n / 2.0)
    ensures o.Object? && (o.doubleRounds == Undefined || o.rounds == Undefined) &&
              !o.doubleRounds.Truthy() && !o.rounds.Truthy()
            ==> r == Success(10)
  {
    match o
    case Scalar(Null) => Failure(NotAnObject)
    case Scalar(Undefined) => ReadObject(Undefined, Undefined)
    case Scalar(Num(n)) =>
      if IsInteger(n) then Validate(n) else ReadObject(Undefined, Undefined)
    case Object(d, rs) => ReadObject(d, rs)
  }

  /** The `else` branch: the two properties of an options object. */
  function ReadObject(d: JsValue, rs: JsValue): Result<nat>
  {
    if d != Undefined && rs != Undefined then Failure(ConflictingRounds)
    else
      var fromDouble := if d.Truthy() then d.n else 10.0;
      var chosen := if rs.Truthy() then rs.n / 2.0 else fromDouble;
      Validate(chosen)
  }

  /** The final check: a positive integer, or `InvalidRounds`. */
  function Validate(x: real): (r: Result<nat>)
    ensures r.Success? <==> IsInteger(x) && x > 0.0
    ensures r.Success? ==> r.value as real == x
    ensures r.Failure? ==> r.error == InvalidRounds
  {
    if IsInteger(x) && x > 0.0 then Success(x.Floor as nat) else Failure(InvalidRounds)
  }

  /** With no argument, or an empty options object, the core runs 10 double
      rounds (Salsa20/20). */
  lemma DefaultIsTen()
    ensures DetermineDoubleRounds(Scalar(Undefined)) == Success(10)
    ensures DetermineDoubleRounds(Object(Undefined, Undefined)) == Success(10)
  {
  }

  /** A bare positive integer is the double-round count; zero or a negative
      integer is rejected. */
  lemma BareInteger(k: int)
    ensures k > 0 ==> DetermineDoubleRounds(Scalar(Num(k as real))) == Success(k)
    ensures k <= 0 ==> DetermineDoubleRounds(Scalar(Num(k as real))) == Failure(InvalidRounds)
  {
  }

  /** A bare number that is not an integer is not a count at all: the
      default applies. */
  lemma BareFractionIgnored(x: real)
    requires !IsInteger(x)
    ensures DetermineDoubleRounds(Scalar(Num(x))) == Success(10)
  {
  }

  /** `{rounds: 2k}` runs `k` double rounds and `{doubleRounds: k}` runs `k`. */
  lemma RoundsHalved(k: nat)
    requires k > 0
    ensures DetermineDoubleRounds(Object(Undefined, Num(2.0 * k as real))) == Success(k)
    ensures DetermineDoubleRounds(Object(Num(k as real), Undefined)) == Success(k)
  {
    assert (2.0 * k as real) / 2.0 == k as real;
  }

  /** An odd `rounds` cannot be halved into a whole number of double rounds
      and is rejected. */
  lemma OddRoundsRejected(k: nat)
    ensures DetermineDoubleRounds(Object(Undefined, Num(2.0 * k as real + 1.0))) == Failure(InvalidRounds)
  {
    var h := (2.0 * k as real + 1.0) / 2.0;
    assert h == k as real + 0.5;
    assert h.Floor == k;
  }

  /** A count that is not a positive integer is rejected, whichever way it
      is given: `{doubleRounds: -3}`, `{doubleRounds: 2.5}`, `{rounds: -4}`
      and `{rounds: 0.5}` all throw. */
  lemma NonPositiveOrFractionRejected(x: real)
    requires x != 0.0 && !(IsInteger(x) && x > 0.0)
    ensures DetermineDoubleRounds(Object(Num(x), Undefined)) == Failure(InvalidRounds)
    ensures DetermineDoubleRounds(Object(Undefined, Num(2.0 * x))) == Failure(InvalidRounds)
    ensures DetermineDoubleRounds(Object(Num(-3.0), Undefined)) == Failure(InvalidRounds)
    ensures DetermineDoubleRounds(Object(Num(2.5), Undefined)) == Failure(InvalidRounds)
    ensures DetermineDoubleRounds(Object(Undefined, Num(-4.0))) == Failure(InvalidRounds)
    ensures DetermineDoubleRounds(Object(Undefined, Num(0.5))) == Failure(InvalidRounds)
  {
    assert (2.0 * x) / 2.0 == x;
  }

  /** A falsy property (zero or `null`) alone is ignored and the default
      applies; `null` still counts as given when the other property is set. */
  lemma FalsyIgnored(other: JsValue)
    ensures DetermineDoubleRounds(Object(Num(0.0), Undefined)) == Success(10)
    ensures DetermineDoubleRounds(Object(Undefined, Num(0.0))) == Success(10)
    ensures DetermineDoubleRounds(Object(Null, Undefined)) == Success(10)
    ensures DetermineDoubleRounds(Object(Undefined, Null)) == Success(10)
    ensures other != Undefined ==> DetermineDoubleRounds(Object(Null, other)) == Failure(ConflictingRounds)
  {
  }

  /** The legacy constructor: a falsy count, or one below 10, becomes 10;
      otherwise the core loop `for (i = 0; i < rounds; i++)` runs once per
      integer below `rounds`, that is `ceil(rounds)` times. Each iteration
      is a full double round, so the legacy object never runs fewer than 10. */
  function LegacyDoubleRounds(v: JsValue): (r: nat)
    ensures r >= 10
    ensures v.Num? && IsInteger(v.n) && v.n >= 10.0 ==> r as real == v.n
    ensures !v.Truthy() || v.n < 10.0 ==> r == 10
    ensures v.Num? && v.n >= 10.0 ==> r as real - 1.0 < v.n <= r as real
  {
    if !v.Truthy() || v.n < 10.0 then 10
    else if IsInteger(v.n) then v.n.Floor
    else v.n.Floor + 1
  }
}

=== FILE: stream.dfy ===
/** The keystream: one core call per block, the template with the block
    counter in slots 8-9 as input, the 16 output words serialised into 64
    bytes, blocks concatenated. Both objects generate it this way and differ
    only in the byte order of the serialisation. */
module Stream {
  import opened Words
  import opened Core
  import opened BlockCounter
  import opened Expansion

  /** The byte order a block's words are written in. */
  datatype Order = LittleEndian | BigEndian

  /** The 16 output words written out four bytes each. */
  function Serialize(order: Order, ws: seq<Word>): (bs: seq<Byte>)
    ensures |bs| == 4 * |ws|
  {
    match order
    case LittleEndian => BytesLE(ws)
    case BigEndian => BytesBE(ws)
  }

  /** One 64-byte keystream block for counter `c`. */
  function Block(order: Order, n: nat, t: State, c: Counter): (b: seq<Byte>)
    ensures |b| == 64
  {
    Serialize(order, Salsa20(n, WithCounter(t, c)))
  }

  /** A block generator: the 64 bytes produced for each counter value. */
  type Generator = Counter -> seq<Byte>

  /** Every block is 64 bytes. */
  ghost predicate Uniform(gen: Generator) {
    forall c :: |gen(c)| == 64
  }

  /** The generator of either object, fixed by the byte order, the number of
      double rounds and the template. */
  function BlockGen(order: Order, n: nat, t: State): (gen: Generator)
    ensures Uniform(gen)
  {
    c => Block(order, n, t, c)
  }

  /** Byte `m` of the keystream that starts at counter `c`, defined without
      generating the blocks before it: byte `m % 64` of the block for the
      counter `m / 64` steps on. */
  function StreamByte(gen: Generator, c: Counter, m: nat): Byte
    requires Uniform(gen)
  {
    gen(IncN(c, m / 64))[m % 64]
  }

  /** `count` blocks in order, starting at counter `c`, as the generation
      loop writes them into `xorStream`. */
  function Keystream(gen: Generator, c: Counter, count: nat): (ks: seq<Byte>)
    requires Uniform(gen)
    ensures |ks| == 64 * count
    decreases count
  {
    if count == 0 then [] else gen(c) + Keystream(gen, Inc(c), count - 1)
  }

  /** Random access: every byte of the generated keystream is the byte the
      counter arithmetic predicts. */
  lemma {:induction false} KeystreamAt(gen: Generator, c: Counter, count: nat, m: nat)
    requires Uniform(gen) && m < 64 * count
    ensures Keystream(gen, c, count)[m] == StreamByte(gen, c, m)
    decreases count
  {
    if m >= 64 {
      KeystreamAt(gen, Inc(c), count - 1, m - 64);
      assert (m - 64) / 64 == m / 64 - 1 && (m - 64) % 64 == m % 64;
    }
  }

  /** Every byte of the generated keystream is the predicted stream byte. */
  lemma KeystreamAll(gen: Generator, c: Counter, count: nat)
    requires Uniform(gen)
    ensures forall m :: 0 <= m < 64 * count ==> Keystream(gen, c, count)[m] == StreamByte(gen, c, m)
  {
    forall m | 0 <= m < 64 * count
      ensures Keystream(gen, c, count)[m] == StreamByte(gen, c, m)
    {
      KeystreamAt(gen, c, count, m);
    }
  }

  /** Generating one block more appends the block for the next counter. */
  lemma {:induction false} KeystreamSnoc(gen: Generator, c: Counter, count: nat)
    requires Uniform(gen)
    ensures Keystream(gen, c, count + 1) == Keystream(gen, c, count) + gen(IncN(c, count))
    decreases count
  {
    if count > 0 {
      KeystreamSnoc(gen, Inc(c), count - 1);
    }
  }

  /** Starting `k` blocks later is reading the stream from byte `64 k` on. */
  lemma StreamByteShift(gen: Generator, c: Counter, k: nat, m: nat)
    requires Uniform(gen)
    ensures StreamByte(gen, IncN(c, k), m) == StreamByte(gen, c, 64 * k + m)
  {
    var q, r := m / 64, m % 64;
    assert m == 64 * q + r;
    assert 64 * k + m == 64 * (k + q) + r;
    DivideBy64(64 * k + m, k + q, r);
    IncNAdd(c, k, q);
  }

  /** Byte `m` of the stream `k` blocks on is byte `64 k + m` of a
      generated keystream that reaches that far. */
  lemma ShiftedKeystreamAt(gen: Generator, c: Counter, k: nat, count: nat, m: nat)
    requires Uniform(gen) && 64 * k + m < 64 * count
    ensures StreamByte(gen, IncN(c, k), m) == Keystream(gen, c, count)[64 * k + m]
  {
    StreamByteShift(gen, c, k, m);
    KeystreamAt(gen, c, count, 64 * k + m);
  }

  /** `floor(len / 64) + 1` blocks always cover `len` bytes, with room to
      spare; when `len` is a multiple of 64, exactly one block to spare. */
  lemma BlocksCover(len: nat)
    ensures len < 64 * (len / 64 + 1)
    ensures len % 64 == 0 ==> 64 * (len / 64 + 1) == len + 64
  {
    DivideBy64(len, len / 64, len % 64);
  }

  /** Quotient and remainder by 64 are unique. */
  lemma DivideBy64(x: nat, q: nat, r: nat)
    requires x == 64 * q + r && r < 64
    ensures x / 64 == q && x % 64 == r
  {
  }

  /** The reading of a little-endian block in section 7 of the Salsa20
      specification: its bytes, read back as little-endian words, are the
      core's output words. */
  lemma BlockIsCoreOutput(n: nat, t: State, c: Counter)
    ensures WordsLE(Block(LittleEndian, n, t, c)) == Salsa20(n, WithCounter(t, c))
  {
    WordsOfBytesLE(Salsa20(n, WithCounter(t, c)));
  }

  /** The data xor-ed with the first `|data|` keystream bytes. */
  function Combine(data: seq<Byte>, ks: seq<Byte>): (out: seq<Byte>)
    requires |data| <= |ks|
    ensures |out| == |data|
    ensures forall i :: 0 <= i < |data| ==> out[i] == data[i] ^ ks[i]
  {
    Xor(data, ks[..|data|])
  }

  /** The inner loop of `_xorBuf`: each word of a block written out as four
      bytes, shifting and masking. */
  method SerializeBlock(order: Order, block: seq<Word>) returns (bytes: seq<Byte>)
    ensures bytes == Serialize(order, block)
  {
    bytes := [];
    var j := 0;
    while j < |block|
      invariant 0 <= j <= |block|
      invariant bytes == Serialize(order, block[..j])
    {
      var w := block[j];
      if order == LittleEndian {
        bytes := bytes + [ByteOf(w, 0), ByteOf(w, 1), ByteOf(w, 2), ByteOf(w, 3)];
        BytesLESnoc(block[..j], w);
      } else {
        bytes := bytes + [ByteOf(w, 3), ByteOf(w, 2), ByteOf(w, 1), ByteOf(w, 0)];
        BytesBESnoc(block[..j], w);
      }
      assert block[..j + 1] == block[..j] + [w];
      j := j + 1;
    }
    assert block[..j] == block;
  }

  /** The outer loop of `_xorBuf`: `count` calls of the block generator,
      each running the core on the template with the current counter,
      writing the block out and incrementing the counter. */
  method GenerateKeystream(order: Order, n: nat, t: State, c: Counter, count: nat)
    returns (ks: seq<Byte>, after: Counter)
    ensures ks == Keystream(BlockGen(order, n, t), c, count)
    ensures after == IncN(c, count)
  {
    ks := [];
    after := c;
    var i := 0;
    while i < count
      invariant 0 <= i <= count
      invariant ks == Keystream(BlockGen(order, n, t), c, i)
      invariant after == IncN(c, i)
    {
      var block := CoreFunc(n, WithCounter(t, after));
      var bytes := SerializeBlock(order, block);
      KeystreamSnoc(BlockGen(order, n, t), c, i);
      IncNSnoc(c, i);
      ks := ks + bytes;
      after := Inc(after);
      i := i + 1;
    }
  }

  /** The last loop of `_xorBuf`: `stream[i] ^= xorStream[i]` over the
      data. */
  method XorLoop(data: seq<Byte>, ks: seq<Byte>) returns (out: seq<Byte>)
    requires |data| <= |ks|
    ensures out == Combine(data, ks)
  {
    out := data;
    var i := 0;
    while i < |data|
      invariant 0 <= i <= |data| && |out| == |data|
      invariant forall k :: 0 <= k < i ==> out[k] == data[k] ^ ks[k]
      invariant forall k :: i <= k < |data| ==> out[k] == data[k]
    {
      out := out[i := out[i] ^ ks[i]];
      i := i + 1;
    }
  }
}

=== FILE: vectors.dfy ===
/** Known answers, with 10 double rounds: two core examples of
    section 8 of Bernstein's "Salsa20 specification", and the first
    keystream block of the two section 9 key setups, with nonce bytes
    101-108 and block number bytes 109-116. Byte strings are written as the
    little-endian words the cipher reads them as. Each run of the core is
    split into its ten double rounds, with the state after each one written
    out. */
module Vectors {
  import opened Words
  import opened Core
  import opened BlockCounter
  import opened Expansion
  import opened Stream
  import Host
  import Cipher

  /** Each state of `t` is one double round of the state before it. */
  ghost predicate IsTrace(t: seq<State>) {
    forall i :: 0 <= i < |t| - 1 ==> DoubleRound(t[i]) == t[i + 1]
  }

  /** Along a trace, the double rounds lead from its first state to its last. */
  lemma {:induction false} TraceRuns(t: seq<State>)
    requires |t| > 0 && IsTrace(t)
    ensures DoubleRounds(|t| - 1, t[0]) == t[|t| - 1]
    decreases |t|
  {
    if |t| > 1 {
      assert IsTrace(t[1..]);
      TraceRuns(t[1..]);
    }
  }

  /** Sixteen elements, spelled out. */
  lemma Display16<T>(s: seq<T>)
    requires |s| == 16
    ensures s == [s[0], s[1], s[2], s[3], s[4], s[5], s[6], s[7],
                  s[8], s[9], s[10], s[11], s[12], s[13], s[14], s[15]]
  {
  }

  /** The core's output spelled out word by word from the permuted state. */
  lemma FeedForward(n: nat, x: State, y: State)
    requires DoubleRounds(n, x) == y
    ensures Salsa20(n, x) == [Add(y[0], x[0]), Add(y[1], x[1]), Add(y[2], x[2]), Add(y[3], x[3]),
                              Add(y[4], x[4]), Add(y[5], x[5]), Add(y[6], x[6]), Add(y[7], x[7]),
                              Add(y[8], x[8]), Add(y[9], x[9]), Add(y[10], x[10]), Add(y[11], x[11]),
                              Add(y[12], x[12]), Add(y[13], x[13]), Add(y[14], x[14]), Add(y[15], x[15])]
  {
    Display16(Salsa20(n, x));
  }

  /** `key` on the nonce bytes followed by the key bytes, then `seek` to
      block `c`: the object is ready with the template of that key and
      nonce and the counter at `c`. */
  lemma KeyThenSeek(nonce: seq<Word>, key: seq<Word>, b: seq<Byte>, c: Counter)
    requires |nonce| == 2 && (|key| == 8 || |key| == 4)
    requires |b| == 8 + 4 * |key| && b[..8] == BytesLE(nonce) && b[8..] == BytesLE(key)
    ensures var k := Cipher.Key(Cipher.Instance(10, Cipher.Unkeyed), Host.ArrayBuffer(b));
      var t := if |key| == 8 then FillKey8(BLANK, nonce, key) else FillKey4(BLANK, nonce, key);
      k.Success? && Cipher.SeekTo(k.value, c.lo, c.hi) == Host.Success(Cipher.Instance(10, Cipher.Ready(t, c)))
  {
    WordsOfBytesLE(nonce);
    WordsOfBytesLE(key);
    assert b[..8][..8] == b[..8];
  }

  /** Encrypting the block the object is about to generate gives zeros. */
  lemma EncryptOwnBlock(s: Cipher.Instance, p: seq<Byte>)
    requires s.stage.Ready? && Cipher.Gen(s)(s.stage.counter) == p
    ensures var e := Cipher.Encrypt(s, Host.ArrayBuffer(p));
      e.Success? && e.value.1.returned == seq(|p|, _ => 0 as Byte)
  {
    var c := s.stage.counter;
    var e := Cipher.Encrypt(s, Host.ArrayBuffer(p));
    forall i | 0 <= i < |p|
      ensures e.value.1.returned[i] == 0
    {
      assert |p| == 64 && i / 64 == 0 && i % 64 == i;
      assert StreamByte(Cipher.Gen(s), c, i) == p[i];
    }
  }

  /** The test's path through the canonical object: `key` on the nonce bytes
      followed by the key bytes, `seek` to the block number, then `encrypt`
      on the expected keystream block, which comes back as 64 zero bytes
      when the core maps the template with that counter to `out`. */
  lemma ExpansionTest(nonce: seq<Word>, key: seq<Word>, b: seq<Byte>, c: Counter, out: State)
    requires |nonce| == 2 && (|key| == 8 || |key| == 4)
    requires |b| == 8 + 4 * |key| && b[..8] == BytesLE(nonce) && b[8..] == BytesLE(key)
    requires Salsa20(10, WithCounter(if |key| == 8 then FillKey8(BLANK, nonce, key) else FillKey4(BLANK, nonce, key), c)) == out
    ensures var k := Cipher.Key(Cipher.Instance(10, Cipher.Unkeyed), Host.ArrayBuffer(b));
      k.Success? &&
      var sk := Cipher.SeekTo(k.value, c.lo, c.hi);
      sk.Success? &&
      var e := Cipher.Encrypt(sk.value, Host.ArrayBuffer(BytesLE(out)));
      e.Success? && e.value.1.returned == seq(64, _ => 0 as Byte)
  {
    var t := if |key| == 8 then FillKey8(BLANK, nonce, key) else FillKey4(BLANK, nonce, key);
    KeyThenSeek(nonce, key, b, c);
    var s2 := Cipher.Instance(10, Cipher.Ready(t, c));
    assert Cipher.Gen(s2)(c) == BytesLE(out);
    EncryptOwnBlock(s2, BytesLE(out));
  }

  // Section 8 of the Salsa20 specification, the input starting 211, 159
  // (test.salsa20.js:68-79): the input, the state after
  // each double round, and the output.
  const CORE1_0: State := [0x730d9fd3, 0xb752374c, 0x25de7503, 0x88eabbbf,
    0x30b3ed31, 0xdbb26a01, 0x30a6c7af, 0xcfb31056,
    0x3f20f01f, 0xa15d530f, 0x71309374, 0x24cc37ee,
    0x4febc94f, 0x2f9c5103, 0xf3f41acb, 0x36687658]
  const CORE1_1: State := [0x90138b67, 0xf0f46083, 0x536873f2, 0x88333019,
    0xe47eff55, 0xb528ff35, 0x6308ab73, 0xb5249859,
    0xc226f585, 0xf7fa31f1, 0x8f09046c, 0x5f97b239,
    0x6ebf71be, 0xc77446ff, 0x6f4e2ddd, 0x42846107]
  const CORE1_2: State := [0xcc23c52b, 0xe1c667e9, 0xd1fc9a7f, 0xe6778630,
    0xea0eb13b, 0x2eb427a8, 0xdbac2070, 0x08df1806,
    0xa279b172, 0x3d13cb34, 0x26fc1bc1, 0x923c70bf,
    0x0ae919bd, 0xe831a30e, 0x3000bc47, 0x315454a1]
  const CORE1_3: State := [0x71f3a1b2, 0xa541a407, 0x1a094bbb, 0x73ed61b8,
    0xb8adac77, 0xe41f6ecb, 0xab14bbf6, 0x9e29ea6d,
    0x9b9556c6, 0x36da47b0, 0x241657e2, 0x84cc5dac,
    0x077f1832, 0x893f0f72, 0xa0ea36d1, 0x10b53ca5]
  const CORE1_4: State := [0xe329afee, 0x8dd46653, 0x34384939, 0x26d1d133,
    0xff72ed5a, 0x82e4c71a, 0x40dfaf2a, 0x57b044f3,
    0xdbeafa94, 0x720f73f9, 0xf4752034, 0x0c84a84e,
    0x7e6ab626, 0x831302b7, 0x82787a99, 0xffccc3be]
  const CORE1_5: State := [0x77696ef8, 0x43f570ad, 0xed8adb15, 0x071f9105,
    0x4dcb33dd, 0xb27ae953, 0xf4327278, 0xb18951de,
    0x6ad91230, 0xe71a69ad, 0xa1509372, 0xfc0d39ed,
    0xcbbb686c, 0x7b6c3ea4, 0xdcfddd67, 0x9cea2b01]
  const CORE1_6: State := [0x6ae602f8, 0x8c1e2d88, 0xc66fed5e, 0xbff12c18,
    0xf9fe8bf5, 0x52d0ee73, 0x3126b9e7, 0x1f227909,
    0x154c97c6, 0xbb29f83c, 0x7224f0d2, 0x7a06892e,
    0xf7302552, 0xb1900fc0, 0x1bdd7d35, 0x1f703269]
  const CORE1_7: State := [0x547c6bf6, 0x9b031f12, 0x5940552c, 0x6a2b395c,
    0x000e28a2, 0xd9609a51, 0xcab19001, 0x68860723,
    0xf2ff9aa0, 0x8dda6150, 0x524af580, 0x311a7153,
    0xbe6aa301, 0x7735873f, 0xbb402750, 0x1811ca57]
  const CORE1_8: State := [0x91546d65, 0x780989cc, 0x536a6184, 0x815cf516,
    0x6354717b, 0xb74ace4c, 0x8dcd3e16, 0x84b348d3,
    0x150b03b6, 0x5dc69b2c, 0x81c3f067, 0x492c0a4c,
    0x1624211f, 0xc069b1b4, 0x7f589d0f, 0x81945b08]
  const CORE1_9: State := [0x7fa64f68, 0xa4f825d5, 0x982c9b5f, 0x7948d8d7,
    0xeb069e87, 0xe1e23458, 0x14955607, 0x58e44aa6,
    0x3271e5fe, 0x7c6065e5, 0xc07f1cec, 0x64827659,
    0x23ace790, 0x8006e980, 0xcdedb7fe, 0x14915d49]
  const CORE1_10: State := [0x35a48a9a, 0x37a6b950, 0xa5e04fa5, 0x11bfb25b,
    0xe9e22fec, 0x1e38b495, 0x0054dc0f, 0x69807fef,
    0x5e773857, 0xbcbde6a5, 0xb2bb96f7, 0x4da6372d,
    0x37fd238c, 0xe2d24a6c, 0xaa6bcd4d, 0x93c79d5b]
  const CORE1_OUT: State := [0xa8b22a6d, 0xeef8f09c, 0xcbbec4a8, 0x9aaa6e1a,
    0x1a961d1d, 0xf9eb1e96, 0x30fba3be, 0x39339045,
    0x9d982876, 0x5e1b39b4, 0x23ec2a6b, 0x72726f1b,
    0x87e8ecdb, 0x126e9b6f, 0x9e5fe818, 0xca3013b3]

  // One double round at a time.
  lemma Core1Round0()
    ensures DoubleRound(CORE1_0) == CORE1_1
  {
    DoubleRoundIsRowOfColumn(CORE1_0);
  }

  lemma Core1Round1()
    ensures DoubleRound(CORE1_1) == CORE1_2
  {
    DoubleRoundIsRowOfColumn(CORE1_1);
  }

  lemma Core1Round2()
    ensures DoubleRound(CORE1_2) == CORE1_3
  {
    DoubleRoundIsRowOfColumn(CORE1_2);
  }

  lemma Core1Round3()
    ensures DoubleRound(CORE1_3) == CORE1_4
  {
    DoubleRoundIsRowOfColumn(CORE1_3);
  }

  lemma Core1Round4()
    ensures DoubleRound(CORE1_4) == CORE1_5
  {
    DoubleRoundIsRowOfColumn(CORE1_4);
  }

  lemma Core1Round5()
    ensures DoubleRound(CORE1_5) == CORE1_6
  {
    DoubleRoundIsRowOfColumn(CORE1_5);
  }

  lemma Core1Round6()
    ensures DoubleRound(CORE1_6) == CORE1_7
  {
    DoubleRoundIsRowOfColumn(CORE1_6);
  }

  lemma Core1Round7()
    ensures DoubleRound(CORE1_7) == CORE1_8
  {
    DoubleRoundIsRowOfColumn(CORE1_7);
  }

  lemma Core1Round8()
    ensures DoubleRound(CORE1_8) == CORE1_9
  {
    DoubleRoundIsRowOfColumn(CORE1_8);
  }

  lemma Core1Round9()
    ensures DoubleRound(CORE1_9) == CORE1_10
  {
    DoubleRoundIsRowOfColumn(CORE1_9);
  }

  /** The ten double rounds, through the trace. */
  lemma Core1Rounds()
    ensures DoubleRounds(10, CORE1_0) == CORE1_10
  {
    Core1Round0();
    Core1Round1();
    Core1Round2();
    Core1Round3();
    Core1Round4();
    Core1Round5();
    Core1Round6();
    Core1Round7();
    Core1Round8();
    Core1Round9();
    var t := [CORE1_0, CORE1_1, CORE1_2, CORE1_3, CORE1_4, CORE1_5, CORE1_6, CORE1_7, CORE1_8, CORE1_9, CORE1_10];
    assert IsTrace(t);
    TraceRuns(t);
  }

  /** The feed-forward, word by word. */
  lemma Core1Sum()
    ensures [Add(CORE1_10[0], CORE1_0[0]), Add(CORE1_10[1], CORE1_0[1]), Add(CORE1_10[2], CORE1_0[2]), Add(CORE1_10[3], CORE1_0[3]),
            Add(CORE1_10[4], CORE1_0[4]), Add(CORE1_10[5], CORE1_0[5]), Add(CORE1_10[6], CORE1_0[6]), Add(CORE1_10[7], CORE1_0[7]),
            Add(CORE1_10[8], CORE1_0[8]), Add(CORE1_10[9], CORE1_0[9]), Add(CORE1_10[10], CORE1_0[10]), Add(CORE1_10[11], CORE1_0[11]),
            Add(CORE1_10[12], CORE1_0[12]), Add(CORE1_10[13], CORE1_0[13]), Add(CORE1_10[14], CORE1_0[14]), Add(CORE1_10[15], CORE1_0[15])] == CORE1_OUT
  {
  }

  /** Section 8 of the Salsa20 specification, the input starting 211, 159:
      the core maps the input words to the output
      words. */
  lemma Core1Vector()
    ensures Salsa20(10, CORE1_0) == CORE1_OUT
  {
    Core1Rounds();
    FeedForward(10, CORE1_0, CORE1_10);
    Core1Sum();
  }

  // Section 8 of the Salsa20 specification, the input starting 88, 118
  // (test.salsa20.js:85-96): the input, the state after
  // each double round, and the output.
  const CORE2_0: State := [0x36687658, 0x4febc94f, 0x2f9c5103, 0xf3f41acb,
    0x88eabbbf, 0x730d9fd3, 0xb752374c, 0x25de7503,
    0xcfb31056, 0x30b3ed31, 0xdbb26a01, 0x30a6c7af,
    0x24cc37ee, 0x3f20f01f, 0xa15d530f, 0x71309374]
  const CORE2_1: State := [0x42846107, 0x6ebf71be, 0xc77446ff, 0x6f4e2ddd,
    0x88333019, 0x90138b67, 0xf0f46083, 0x536873f2,
    0xb5249859, 0xe47eff55, 0xb528ff35, 0x6308ab73,
    0x5f97b239, 0xc226f585, 0xf7fa31f1, 0x8f09046c]
  const CORE2_2: State := [0x315454a1, 0x0ae919bd, 0xe831a30e, 0x3000bc47,
    0xe6778630, 0xcc23c52b, 0xe1c667e9, 0xd1fc9a7f,
    0x08df1806, 0xea0eb13b, 0x2eb427a8, 0xdbac2070,
    0x923c70bf, 0xa279b172, 0x3d13cb34, 0x26fc1bc1]
  const CORE2_3: State := [0x10b53ca5, 0x077f1832, 0x893f0f72, 0xa0ea36d1,
    0x73ed61b8, 0x71f3a1b2, 0xa541a407, 0x1a094bbb,
    0x9e29ea6d, 0xb8adac77, 0xe41f6ecb, 0xab14bbf6,
    0x84cc5dac, 0x9b9556c6, 0x36da47b0, 0x241657e2]
  const CORE2_4: State := [0xffccc3be, 0x7e6ab626, 0x831302b7, 0x82787a99,
    0x26d1d133, 0xe329afee, 0x8dd46653, 0x34384939,
    0x57b044f3, 0xff72ed5a, 0x82e4c71a, 0x40dfaf2a,
    0x0c84a84e, 0xdbeafa94, 0x720f73f9, 0xf4752034]
  const CORE2_5: State := [0x9cea2b01, 0xcbbb686c, 0x7b6c3ea4, 0xdcfddd67,
    0x071f9105, 0x77696ef8, 0x43f570ad, 0xed8adb15,
    0xb18951de, 0x4dcb33dd, 0xb27ae953, 0xf4327278,
    0xfc0d39ed, 0x6ad91230, 0xe71a69ad, 0xa1509372]
  const CORE2_6: State := [0x1f703269, 0xf7302552, 0xb1900fc0, 0x1bdd7d35,
    0xbff12c18, 0x6ae602f8, 0x8c1e2d88, 0xc66fed5e,
    0x1f227909, 0xf9fe8bf5, 0x52d0ee73, 0x3126b9e7,
    0x7a06892e, 0x154c97c6, 0xbb29f83c, 0x7224f0d2]
  const CORE2_7: State := [0x1811ca57, 0xbe6aa301, 0x7735873f, 0xbb402750,
    0x6a2b395c, 0x547c6bf6, 0x9b031f12, 0x5940552c,
    0x68860723, 0x000e28a2, 0xd9609a51, 0xcab19001,
    0x311a7153, 0xf2ff9aa0, 0x8dda6150, 0x524af580]
  const CORE2_8: State := [0x81945b08, 0x1624211f, 0xc069b1b4, 0x7f589d0f,
    0x815cf516, 0x91546d65, 0x780989cc, 0x536a6184,
    0x84b348d3, 0x6354717b, 0xb74ace4c, 0x8dcd3e16,
    0x492c0a4c, 0x150b03b6, 0x5dc69b2c, 0x81c3f067]
  const CORE2_9: State := [0x14915d49, 0x23ace790, 0x8006e980, 0xcdedb7fe,
    0x7948d8d7, 0x7fa64f68, 0xa4f825d5, 0x982c9b5f,
    0x58e44aa6, 0xeb069e87, 0xe1e23458, 0x14955607,
    0x64827659, 0x3271e5fe, 0x7c6065e5, 0xc07f1cec]
  const CORE2_10: State := [0x93c79d5b, 0x37fd238c, 0xe2d24a6c, 0xaa6bcd4d,
    0x11bfb25b, 0x35a48a9a, 0x37a6b950, 0xa5e04fa5,
    0x69807fef, 0xe9e22fec, 0x1e38b495, 0x0054dc0f,
    0x4da6372d, 0x5e773857, 0xbcbde6a5, 0xb2bb96f7]
  const CORE2_OUT: State := [0xca3013b3, 0x87e8ecdb, 0x126e9b6f, 0x9e5fe818,
    0x9aaa6e1a, 0xa8b22a6d, 0xeef8f09c, 0xcbbec4a8,
    0x39339045, 0x1a961d1d, 0xf9eb1e96, 0x30fba3be,
    0x72726f1b, 0x9d982876, 0x5e1b39b4, 0x23ec2a6b]

  // One double round at a time.
  lemma Core2Round0()
    ensures DoubleRound(CORE2_0) == CORE2_1
  {
    DoubleRoundIsRowOfColumn(CORE2_0);
  }

  lemma Core2Round1()
    ensures DoubleRound(CORE2_1) == CORE2_2
  {
    DoubleRoundIsRowOfColumn(CORE2_1);
  }

  lemma Core2Round2()
    ensures DoubleRound(CORE2_2) == CORE2_3
  {
    DoubleRoundIsRowOfColumn(CORE2_2);
  }

  lemma Core2Round3()
    ensures DoubleRound(CORE2_3) == CORE2_4
  {
    DoubleRoundIsRowOfColumn(CORE2_3);
  }

  lemma Core2Round4()
    ensures DoubleRound(CORE2_4) == CORE2_5
  {
    DoubleRoundIsRowOfColumn(CORE2_4);
  }

  lemma Core2Round5()
    ensures DoubleRound(CORE2_5) == CORE2_6
  {
    DoubleRoundIsRowOfColumn(CORE2_5);
  }

  lemma Core2Round6()
    ensures DoubleRound(CORE2_6) == CORE2_7
  {
    DoubleRoundIsRowOfColumn(CORE2_6);
  }

  lemma Core2Round7()
    ensures DoubleRound(CORE2_7) == CORE2_8
  {
    DoubleRoundIsRowOfColumn(CORE2_7);
  }

  lemma Core2Round8()
    ensures DoubleRound(CORE2_8) == CORE2_9
  {
    DoubleRoundIsRowOfColumn(CORE2_8);
  }

  lemma Core2Round9()
    ensures DoubleRound(CORE2_9) == CORE2_10
  {
    DoubleRoundIsRowOfColumn(CORE2_9);
  }

  /** The ten double rounds, through the trace. */
  lemma Core2Rounds()
    ensures DoubleRounds(10, CORE2_0) == CORE2_10
  {
    Core2Round0();
    Core2Round1();
    Core2Round2();
    Core2Round3();
    Core2Round4();
    Core2Round5();
    Core2Round6();
    Core2Round7();
    Core2Round8();
    Core2Round9();
    var t := [CORE2_0, CORE2_1, CORE2_2, CORE2_3, CORE2_4, CORE2_5, CORE2_6, CORE2_7, CORE2_8, CORE2_9, CORE2_10];
    assert IsTrace(t);
    TraceRuns(t);
  }

  /** The feed-forward, word by word. */
  lemma Core2Sum()
    ensures [Add(CORE2_10[0], CORE2_0[0]), Add(CORE2_10[1], CORE2_0[1]), Add(CORE2_10[2], CORE2_0[2]), Add(CORE2_10[3], CORE2_0[3]),
            Add(CORE2_10[4], CORE2_0[4]), Add(CORE2_10[5], CORE2_0[5]), Add(CORE2_10[6], CORE2_0[6]), Add(CORE2_10[7], CORE2_0[7]),
            Add(CORE2_10[8], CORE2_0[8]), Add(CORE2_10[9], CORE2_0[9]), Add(CORE2_10[10], CORE2_0[10]), Add(CORE2_10[11], CORE2_0[11]),
            Add(CORE2_10[12], CORE2_0[12]), Add(CORE2_10[13], CORE2_0[13]), Add(CORE2_10[14], CORE2_0[14]), Add(CORE2_10[15], CORE2_0[15])] == CORE2_OUT
  {
  }

  /** Section 8 of the Salsa20 specification, the input starting 88, 118:
      the core maps the input words to the output
      words. */
  lemma Core2Vector()
    ensures Salsa20(10, CORE2_0) == CORE2_OUT
  {
    Core2Rounds();
    FeedForward(10, CORE2_0, CORE2_10);
    Core2Sum();
  }

  // Section 9 of the Salsa20 specification, 256-bit key (test.salsa20.js:99-115).
  const KEY32_NONCE: seq<Word> := [0x68676665, 0x6c6b6a69]
  const KEY32_KEY: seq<Word> := [0x04030201, 0x08070605, 0x0c0b0a09, 0x100f0e0d,
    0xcccbcac9, 0xd0cfcecd, 0xd4d3d2d1, 0xd8d7d6d5]
  const KEY32_COUNTER: Counter := Counter(0x706f6e6d, 0x74737271)
  const KEY32_0: State := [0x61707865, 0x04030201, 0x08070605, 0x0c0b0a09,
    0x100f0e0d, 0x3320646e, 0x68676665, 0x6c6b6a69,
    0x706f6e6d, 0x74737271, 0x79622d32, 0xcccbcac9,
    0xd0cfcecd, 0xd4d3d2d1, 0xd8d7d6d5, 0x6b206574]
  const KEY32_1: State := [0xe10c4e81, 0x9b9dfce3, 0xb77c8002, 0xb58fbef1,
    0x143fae44, 0x486a24ea, 0x483ff042, 0x82413057,
    0xefcf7d9c, 0x875fdded, 0xf6c294ad, 0xd06b9760,
    0xb27f37ab, 0x46a08723, 0xcbc7c206, 0x0b8e15e6]
  const KEY32_2: State := [0xcd1276c4, 0xb52058c4, 0xcc7d96a2, 0xf4b5cdaf,
    0xabd4564b, 0xfb56c349, 0x6ee7358d, 0x034c9bba,
    0xc2029a0e, 0xf3e680fb, 0x30d8229a, 0x1d20eb3f,
    0xcfbed549, 0xd9a359d4, 0x0f6600b5, 0x8a9fa8b8]
  const KEY32_3: State := [0x25f0f35e, 0x75581db0, 0x32b9347f, 0x3eb9c37e,
    0xd1b81eb3, 0x402336e9, 0x632079ae, 0x0e901ca4,
    0x2f0d8509, 0xe6d939ec, 0xbfd207d8, 0xcf6bf084,
    0xa21f3c82, 0xe39e71a6, 0x650f03cd, 0x8d4e39c3]
  const KEY32_4: State := [0x6d7ed474, 0x99f94eba, 0x9d6af064, 0xe44f263c,
    0xb30f4dc8, 0x8acf139d, 0xb9502d9a, 0x5fab276b,
    0x97c10538, 0xdc33ffff, 0x3c2c807d, 0xbe8b34cc,
    0xbe5eff75, 0x709893b5, 0xee2a8502, 0xb6dd54f5]
  const KEY32_5: State := [0x8bdaf4d2, 0xfc1d6ec0, 0x94daa2d9, 0x5238f499,
    0xd4abb4e0, 0x3769898a, 0xdf4196de, 0x8eaab38a,
    0xc77d8a73, 0x88f88059, 0xbf9897ef, 0xda23fd5f,
    0x9d3a47ae, 0x64402d95, 0x1ed5eed7, 0xc41330ff]
  const KEY32_6: State := [0xcd8e0c5d, 0x8171dcf9, 0x7dc7a31b, 0x79ad4431,
    0x0053627c, 0x08062180, 0x2ecead11, 0x85744623,
    0xcd8bdae7, 0x9b776b5a, 0xe5cf423a, 0xa34aacb7,
    0xc36e288f, 0x6640b503, 0xa870cd2d, 0x0e413f31]
  const KEY32_7: State := [0x7ca4f449, 0x35cc1584, 0x59cbffdd, 0xbef4819a,
    0x68bc0cc1, 0x164f0384, 0x1fc16507, 0xa7e752a1,
    0xb8615866, 0xe9c63268, 0xbf226b5d, 0x7754f20d,
    0x3c2d7190, 0x3dc26f73, 0x1aa7079a, 0x08432746]
  const KEY32_8: State := [0xe9bfd254, 0xd1a5caef, 0x979bc206, 0x4366850d,
    0x8687ee7f, 0xd7048e32, 0xa1b64094, 0xd15df7b4,
    0xff73b800, 0x3d183607, 0xf229b8ad, 0x02db1294,
    0x0fed8894, 0x3f4c9880, 0x2f6dbc12, 0xa162ccfc]
  const KEY32_9: State := [0x5effa3e1, 0x56571a32, 0xfc8decae, 0xfd554703,
    0x66565996, 0xdaa37a38, 0x843c0151, 0x986db295,
    0xc2e2617c, 0x80d6d9d4, 0xbfd6b1c0, 0x355ce597,
    0x598d79a3, 0x37541a97, 0xf2164ec7, 0x7e571a08]
  const KEY32_10: State := [0xc5d3ace0, 0xbd680d28, 0xfe7385fa, 0x56cedfa1,
    0x5aa7824c, 0x0ea7cea7, 0xba76cb8a, 0x11bd086e,
    0x709856fb, 0x8dac2754, 0x36ea2134, 0xec2b2a8b,
    0xb1b5d1e4, 0xa2c17535, 0x13aceceb, 0xdfd60276]
  const KEY32_OUT: State := [0x27442545, 0xc16b0f29, 0x067a8bff, 0x62d9e9aa,
    0x6ab69059, 0x41c83315, 0x22de31ef, 0x7e2872d7,
    0xe107c568, 0x021f99c5, 0xb04c4e66, 0xb8f6f554,
    0x8285a0b1, 0x77954806, 0xec84c3c0, 0x4af667ea]

  // One double round at a time.
  lemma Key32Round0()
    ensures DoubleRound(KEY32_0) == KEY32_1
  {
    DoubleRoundIsRowOfColumn(KEY32_0);
  }

  lemma Key32Round1()
    ensures DoubleRound(KEY32_1) == KEY32_2
  {
    DoubleRoundIsRowOfColumn(KEY32_1);
  }

  lemma Key32Round2()
    ensures DoubleRound(KEY32_2) == KEY32_3
  {
    DoubleRoundIsRowOfColumn(KEY32_2);
  }

  lemma Key32Round3()
    ensures DoubleRound(KEY32_3) == KEY32_4
  {
    DoubleRoundIsRowOfColumn(KEY32_3);
  }

  lemma Key32Round4()
    ensures DoubleRound(KEY32_4) == KEY32_5
  {
    DoubleRoundIsRowOfColumn(KEY32_4);
  }

  lemma Key32Round5()
    ensures DoubleRound(KEY32_5) == KEY32_6
  {
    DoubleRoundIsRowOfColumn(KEY32_5);
  }

  lemma Key32Round6()
    ensures DoubleRound(KEY32_6) == KEY32_7
  {
    DoubleRoundIsRowOfColumn(KEY32_6);
  }

  lemma Key32Round7()
    ensures DoubleRound(KEY32_7) == KEY32_8
  {
    DoubleRoundIsRowOfColumn(KEY32_7);
  }

  lemma Key32Round8()
    ensures DoubleRound(KEY32_8) == KEY32_9
  {
    DoubleRoundIsRowOfColumn(KEY32_8);
  }

  lemma Key32Round9()
    ensures DoubleRound(KEY32_9) == KEY32_10
  {
    DoubleRoundIsRowOfColumn(KEY32_9);
  }

  /** The ten double rounds, through the trace. */
  lemma Key32Rounds()
    ensures DoubleRounds(10, KEY32_0) == KEY32_10
  {
    Key32Round0();
    Key32Round1();
    Key32Round2();
    Key32Round3();
    Key32Round4();
    Key32Round5();
    Key32Round6();
    Key32Round7();
    Key32Round8();
    Key32Round9();
    var t := [KEY32_0, KEY32_1, KEY32_2, KEY32_3, KEY32_4, KEY32_5, KEY32_6, KEY32_7, KEY32_8, KEY32_9, KEY32_10];
    assert IsTrace(t);
    TraceRuns(t);
  }

  /** The feed-forward, word by word. */
  lemma Key32Sum()
    ensures [Add(KEY32_10[0], KEY32_0[0]), Add(KEY32_10[1], KEY32_0[1]), Add(KEY32_10[2], KEY32_0[2]), Add(KEY32_10[3], KEY32_0[3]),
            Add(KEY32_10[4], KEY32_0[4]), Add(KEY32_10[5], KEY32_0[5]), Add(KEY32_10[6], KEY32_0[6]), Add(KEY32_10[7], KEY32_0[7]),
            Add(KEY32_10[8], KEY32_0[8]), Add(KEY32_10[9], KEY32_0[9]), Add(KEY32_10[10], KEY32_0[10]), Add(KEY32_10[11], KEY32_0[11]),
            Add(KEY32_10[12], KEY32_0[12]), Add(KEY32_10[13], KEY32_0[13]), Add(KEY32_10[14], KEY32_0[14]), Add(KEY32_10[15], KEY32_0[15])] == KEY32_OUT
  {
  }

  /** The 256-bit template with the counter written in. */
  lemma Key32Input()
    ensures WithCounter(FillKey8(BLANK, KEY32_NONCE, KEY32_KEY), KEY32_COUNTER) == KEY32_0
  {
  }

  /** Section 9 of the Salsa20 specification, 256-bit key: the block for the seeked counter, read back as
      little-endian words, is the published keystream block. */
  lemma Key32Vector()
    ensures WordsLE(Block(LittleEndian, 10, FillKey8(BLANK, KEY32_NONCE, KEY32_KEY), KEY32_COUNTER)) == KEY32_OUT
  {
    Key32Input();
    Key32Rounds();
    FeedForward(10, KEY32_0, KEY32_10);
    Key32Sum();
    BlockIsCoreOutput(10, FillKey8(BLANK, KEY32_NONCE, KEY32_KEY), KEY32_COUNTER);
  }

  // Section 9 of the Salsa20 specification, 128-bit key (test.salsa20.js:117-133).
  const KEY16_NONCE: seq<Word> := [0x68676665, 0x6c6b6a69]
  const KEY16_KEY: seq<Word> := [0x04030201, 0x08070605, 0x0c0b0a09, 0x100f0e0d]
  const KEY16_COUNTER: Counter := Counter(0x706f6e6d, 0x74737271)
  const KEY16_0: State := [0x61707865, 0x04030201, 0x08070605, 0x0c0b0a09,
    0x100f0e0d, 0x3120646e, 0x68676665, 0x6c6b6a69,
    0x706f6e6d, 0x74737271, 0x79622d36, 0x04030201,
    0x08070605, 0x0c0b0a09, 0x100f0e0d, 0x6b206574]
  const KEY16_1: State := [0xba884ace, 0x7cc36b7d, 0x689e9ae5, 0xdd74ec12,
    0x7c9ccca1, 0x10bdc09b, 0x9943a127, 0x23831840,
    0x74a50320, 0xf1a1994b, 0x4aeaafa0, 0x705b9fee,
    0xf949ffee, 0x4704d3d8, 0x2ebe0bf4, 0x7bcafacc]
  const KEY16_2: State := [0x8857f1ce, 0x536baf2c, 0xfc22d8ad, 0x1ec29895,
    0xfda1ca4b, 0xd2aa6061, 0x1df9c794, 0xa7a1792e,
    0xdc5ffc89, 0x5353e983, 0xe4b234d0, 0x0813169a,
    0x92b0629e, 0x5f60e104, 0x11e23644, 0xc068c01f]
  const KEY16_3: State := [0xc50f23df, 0x58f56429, 0xaedbb314, 0x01ce648b,
    0xce9448c1, 0xcd0580e1, 0x234c6d92, 0x80f14b6b,
    0x7fe19e22, 0x9ae9a5f5, 0x6cb9d276, 0xd74c77ca,
    0x5d548147, 0xea8bcb42, 0x4d8d2cb9, 0x73a319fe]
  const KEY16_4: State := [0x4e16fec9, 0x182f17d3, 0x6da26dff, 0x46bcd014,
    0xa9a5e169, 0x78123b75, 0x7195ec4d, 0x6434cacc,
    0x1fc1c2fe, 0x7913d755, 0x65d8dd6e, 0x9dcf3149,
    0x332a746a, 0xda15f5fb, 0x43e18959, 0xc85e0db0]
  const KEY16_5: State := [0xfcd9128d, 0x8da0dbe8, 0x2022ada1, 0x2112991f,
    0x85e918b7, 0x032d925c, 0x2d1d565e, 0xd3d7114d,
    0xba876933, 0x6c2fb22d, 0x0f670a70, 0x4efa437b,
    0xec47bd54, 0x74d5f996, 0x42581891, 0xb24acdf8]
  const KEY16_6: State := [0xb668c56a, 0x6bfa72cb, 0x62702e95, 0xd7b63952,
    0x23e50bf3, 0xc05d208d, 0xb78cf757, 0x65f4bc08,
    0x003c8337, 0xd03616d0, 0xb2d71122, 0x3572563d,
    0xd97441b3, 0xdb768444, 0x58d68912, 0x38c560f8]
  const KEY16_7: State := [0x28c759cf, 0xbdb51baa, 0x74d1a815, 0x141a45b5,
    0xbbe32986, 0xe23a3c87, 0xeb7e08f2, 0x7a15ab3b,
    0xc9b48957, 0x10c7a202, 0x1a5fd7c2, 0xfc72d069,
    0xbecb729c, 0xd208c661, 0xedcd07bd, 0xc8760e81]
  const KEY16_8: State := [0x6471d548, 0xd6e8cbf3, 0xd1e41297, 0xfba465ce,
    0xfc9b895b, 0xcbff24bb, 0xd149a94c, 0xd82ac7a8,
    0x27327129, 0xab8f6efa, 0xa93c743c, 0x7a87f5fd,
    0x3fa3c6e7, 0xc17a6f8b, 0xc5f31d9c, 0xc9969aaf]
  const KEY16_9: State := [0x173460be, 0x5652df8d, 0x1f493d50, 0x77779d5f,
    0xcc3bda42, 0x5acb28ba, 0x5a69e3fa, 0xcbefef78,
    0xe9a9e62b, 0x6ec92105, 0xe3150f99, 0xdbcbcfc5,
    0xe400ba45, 0xf0a6c99b, 0x7681c335, 0xfb2c6952]
  const KEY16_10: State := [0x96be34c2, 0x0d4fc61d, 0xe7f73d2b, 0xeb02081c,
    0x802ebae4, 0x8811d29c, 0x958ec8a1, 0x754fec26,
    0x85fee719, 0x76b83130, 0xba4931b1, 0x196dd490,
    0x07fee209, 0x81ac828e, 0xa56afb9e, 0x569150f4]
  const KEY16_OUT: State := [0xf82ead27, 0x1152c81e, 0xeffe4330, 0xf70d1225,
    0x903dc8f1, 0xb932370a, 0xfdf62f06, 0xe1bb568f,
    0xf66e5586, 0xeb2ba3a1, 0x33ab5ee7, 0x1d70d691,
    0x1005e80e, 0x8db78c97, 0xb57a09ab, 0xc1b1b668]

  // One double round at a time.
  lemma Key16Round0()
    ensures DoubleRound(KEY16_0) == KEY16_1
  {
    DoubleRoundIsRowOfColumn(KEY16_0);
  }

  lemma Key16Round1()
    ensures DoubleRound(KEY16_1) == KEY16_2
  {
    DoubleRoundIsRowOfColumn(KEY16_1);
  }

  lemma Key16Round2()
    ensures DoubleRound(KEY16_2) == KEY16_3
  {
    DoubleRoundIsRowOfColumn(KEY16_2);
  }

  lemma Key16Round3()
    ensures DoubleRound(KEY16_3) == KEY16_4
  {
    DoubleRoundIsRowOfColumn(KEY16_3);
  }

  lemma Key16Round4()
    ensures DoubleRound(KEY16_4) == KEY16_5
  {
    DoubleRoundIsRowOfColumn(KEY16_4);
  }

  lemma Key16Round5()
    ensures DoubleRound(KEY16_5) == KEY16_6
  {
    DoubleRoundIsRowOfColumn(KEY16_5);
  }

  lemma Key16Round6()
    ensures DoubleRound(KEY16_6) == KEY16_7
  {
    DoubleRoundIsRowOfColumn(KEY16_6);
  }

  lemma Key16Round7()
    ensures DoubleRound(KEY16_7) == KEY16_8
  {
    DoubleRoundIsRowOfColumn(KEY16_7);
  }

  lemma Key16Round8()
    ensures DoubleRound(KEY16_8) == KEY16_9
  {
    DoubleRoundIsRowOfColumn(KEY16_8);
  }

  lemma Key16Round9()
    ensures DoubleRound(KEY16_9) == KEY16_10
  {
    DoubleRoundIsRowOfColumn(KEY16_9);
  }

  /** The ten double rounds, through the trace. */
  lemma Key16Rounds()
    ensures DoubleRounds(10, KEY16_0) == KEY16_10
  {
    Key16Round0();
    Key16Round1();
    Key16Round2();
    Key16Round3();
    Key16Round4();
    Key16Round5();
    Key16Round6();
    Key16Round7();
    Key16Round8();
    Key16Round9();
    var t := [KEY16_0, KEY16_1, KEY16_2, KEY16_3, KEY16_4, KEY16_5, KEY16_6, KEY16_7, KEY16_8, KEY16_9, KEY16_10];
    assert IsTrace(t);
    TraceRuns(t);
  }

  /** The feed-forward, word by word. */
  lemma Key16Sum()
    ensures [Add(KEY16_10[0], KEY16_0[0]), Add(KEY16_10[1], KEY16_0[1]), Add(KEY16_10[2], KEY16_0[2]), Add(KEY16_10[3], KEY16_0[3]),
            Add(KEY16_10[4], KEY16_0[4]), Add(KEY16_10[5], KEY16_0[5]), Add(KEY16_10[6], KEY16_0[6]), Add(KEY16_10[7], KEY16_0[7]),
            Add(KEY16_10[8], KEY16_0[8]), Add(KEY16_10[9], KEY16_0[9]), Add(KEY16_10[10], KEY16_0[10]), Add(KEY16_10[11], KEY16_0[11]),
            Add(KEY16_10[12], KEY16_0[12]), Add(KEY16_10[13], KEY16_0[13]), Add(KEY16_10[14], KEY16_0[14]), Add(KEY16_10[15], KEY16_0[15])] == KEY16_OUT
  {
  }

  /** The 128-bit template with the counter written in. */
  lemma Key16Input()
    ensures WithCounter(FillKey4(BLANK, KEY16_NONCE, KEY16_KEY), KEY16_COUNTER) == KEY16_0
  {
  }

  /** Section 9 of the Salsa20 specification, 128-bit key: the block for the seeked counter, read back as
      little-endian words, is the published keystream block. */
  lemma Key16Vector()
    ensures WordsLE(Block(LittleEndian, 10, FillKey4(BLANK, KEY16_NONCE, KEY16_KEY), KEY16_COUNTER)) == KEY16_OUT
  {
    Key16Input();
    Key16Rounds();
    FeedForward(10, KEY16_0, KEY16_10);
    Key16Sum();
    BlockIsCoreOutput(10, FillKey4(BLANK, KEY16_NONCE, KEY16_KEY), KEY16_COUNTER);
  }

  /** The 256-bit test as the test script runs it: `key` on the 40-byte
      buffer of nonce and key, `seek` to the block number, and `encrypt` on
      the published block gives 64 zero bytes. */
  lemma Key32Test(b: seq<Byte>)
    requires |b| == 40 && b[..8] == BytesLE(KEY32_NONCE) && b[8..] == BytesLE(KEY32_KEY)
    ensures var k := Cipher.Key(Cipher.Instance(10, Cipher.Unkeyed), Host.ArrayBuffer(b));
      k.Success? &&
      var sk := Cipher.SeekTo(k.value, KEY32_COUNTER.lo, KEY32_COUNTER.hi);
      sk.Success? &&
      var e := Cipher.Encrypt(sk.value, Host.ArrayBuffer(BytesLE(KEY32_OUT)));
      e.Success? && e.value.1.returned == seq(64, _ => 0 as Byte)
  {
    var t := FillKey8(BLANK, KEY32_NONCE, KEY32_KEY);
    Key32Vector();
    WordsOfBytesLE(Salsa20(10, WithCounter(t, KEY32_COUNTER)));
    ExpansionTest(KEY32_NONCE, KEY32_KEY, b, KEY32_COUNTER, KEY32_OUT);
  }

  /** The 128-bit test likewise, with the 24-byte buffer. */
  lemma Key16Test(b: seq<Byte>)
    requires |b| == 24 && b[..8] == BytesLE(KEY16_NONCE) && b[8..] == BytesLE(KEY16_KEY)
    ensures var k := Cipher.Key(Cipher.Instance(10, Cipher.Unkeyed), Host.ArrayBuffer(b));
      k.Success? &&
      var sk := Cipher.SeekTo(k.value, KEY16_COUNTER.lo, KEY16_COUNTER.hi);
      sk.Success? &&
      var e := Cipher.Encrypt(sk.value, Host.ArrayBuffer(BytesLE(KEY16_OUT)));
      e.Success? && e.value.1.returned == seq(64, _ => 0 as Byte)
  {
    var t := FillKey4(BLANK, KEY16_NONCE, KEY16_KEY);
    Key16Vector();
    WordsOfBytesLE(Salsa20(10, WithCounter(t, KEY16_COUNTER)));
    ExpansionTest(KEY16_NONCE, KEY16_KEY, b, KEY16_COUNTER, KEY16_OUT);
  }
}

=== FILE: words.dfy ===
/** 32-bit words and bytes as the cipher uses them: the rotation `R`, the
    wrap-around that storing a sum into a `Uint32Array` performs, and the
    little-endian and big-endian serialisation of a word into four bytes. */
module Words {

  /** One slot of a `Uint32Array`. */
  type Word = bv32

  /** One slot of a `Uint8Array`. */
  type Byte = bv8

  /** `R(a, b)` of the source: shift left by `b`, or-ed with a logical shift
      right by `32 - b`. For a shift strictly between 0 and 32 this is a
      left rotation of the word. */
  function R(a: Word, b: nat): Word
    requires 0 < b < 32
  {
    (a << b) | (a >> (32 - b))
  }

  /** At the four shift distances the permutation uses, `R` is the 32-bit
      left rotation. */
  lemma RIsRotation(a: Word)
    ensures R(a, 7) == a.RotateLeft(7)
    ensures R(a, 9) == a.RotateLeft(9)
    ensures R(a, 13) == a.RotateLeft(13)
    ensures R(a, 18) == a.RotateLeft(18)
  {
  }

  /** The sum of two words modulo 2^32, as storing `a + b` into a
      `Uint32Array` slot wraps it. */
  function Add(a: Word, b: Word): Word
  {
    a + b
  }

  /** Bitwise exclusive or of two words. */
  function WordXor(a: Word, b: Word): Word
  {
    a ^ b
  }

  /** Xor-ing the same word twice cancels. */
  lemma WordXorCancel(w: Word, pad: Word)
    ensures WordXor(WordXor(w, pad), pad) == w
  {
  }

  /** Bytes `[b0, b1, b2, b3]` read as a little-endian word. */
  function WordLE(b0: Byte, b1: Byte, b2: Byte, b3: Byte): Word
  {
    (b0 as Word) | ((b1 as Word) << 8) | ((b2 as Word) << 16) | ((b3 as Word) << 24)
  }

  /** Byte `k` (0 = least significant) of a word, `(w >> 8k) & 0xff`. */
  function ByteOf(w: Word, k: nat): Byte
    requires k < 4
  {
    if k == 0 then (w & 0xff) as Byte
    else if k == 1 then ((w >> 8) & 0xff) as Byte
    else if k == 2 then ((w >> 16) & 0xff) as Byte
    else ((w >> 24) & 0xff) as Byte
  }

  /** A word is determined by its four bytes, and reading bytes back out of
      an assembled word gives them unchanged. */
  lemma WordBytesRoundTrip(w: Word, b0: Byte, b1: Byte, b2: Byte, b3: Byte)
    ensures WordLE(ByteOf(w, 0), ByteOf(w, 1), ByteOf(w, 2), ByteOf(w, 3)) == w
    ensures var v := WordLE(b0, b1, b2, b3);
      ByteOf(v, 0) == b0 && ByteOf(v, 1) == b1 && ByteOf(v, 2) == b2 && ByteOf(v, 3) == b3
  {
  }

  /** A word serialised least-significant byte first. */
  function LE(w: Word): (bs: seq<Byte>)
    ensures |bs| == 4
    ensures WordLE(bs[0], bs[1], bs[2], bs[3]) == w
  {
    WordBytesRoundTrip(w, 0, 0, 0, 0);
    [ByteOf(w, 0), ByteOf(w, 1), ByteOf(w, 2), ByteOf(w, 3)]
  }

  /** A word serialised most-significant byte first. */
  function BE(w: Word): (bs: seq<Byte>)
    ensures |bs| == 4
    ensures WordLE(bs[3], bs[2], bs[1], bs[0]) == w
  {
    WordBytesRoundTrip(w, 0, 0, 0, 0);
    [ByteOf(w, 3), ByteOf(w, 2), ByteOf(w, 1), ByteOf(w, 0)]
  }

  /** Reading four bytes as a little-endian word and writing the word back
      gives the same four bytes. */
  lemma LEOfWordLE(b0: Byte, b1: Byte, b2: Byte, b3: Byte)
    ensures LE(WordLE(b0, b1, b2, b3)) == [b0, b1, b2, b3]
  {
    WordBytesRoundTrip(0, b0, b1, b2, b3);
  }

  /** Words read little-endian from a byte buffer, as `new Uint32Array(buf)`
      does on a little-endian host. */
  function WordsLE(bs: seq<Byte>): (ws: seq<Word>)
    requires |bs| % 4 == 0
    ensures |ws| == |bs| / 4
    decreases |bs|
  {
    if bs == [] then []
    else [WordLE(bs[0], bs[1], bs[2], bs[3])] + WordsLE(bs[4..])
  }

  /** Words serialised in order, each least-significant byte first. */
  function BytesLE(ws: seq<Word>): (bs: seq<Byte>)
    ensures |bs| == 4 * |ws|
  {
    if ws == [] then [] else LE(ws[0]) + BytesLE(ws[1..])
  }

  /** Words serialised in order, each most-significant byte first. */
  function BytesBE(ws: seq<Word>): (bs: seq<Byte>)
    ensures |bs| == 4 * |ws|
  {
    if ws == [] then [] else BE(ws[0]) + BytesBE(ws[1..])
  }

  /** Word `i` of a little-endian read is assembled from bytes `4i .. 4i+3`. */
  lemma {:induction false} WordsLEAt(bs: seq<Byte>, i: nat)
    requires |bs| % 4 == 0 && i < |bs| / 4
    ensures WordsLE(bs)[i] == WordLE(bs[4 * i], bs[4 * i + 1], bs[4 * i + 2], bs[4 * i + 3])
    decreases i
  {
    if i > 0 {
      WordsLEAt(bs[4..], i - 1);
    }
  }

  /** Byte `i` of a little-endian serialisation is byte `i % 4` (counted from
      the least significant end) of word `i / 4`. */
  lemma {:induction false} BytesLEAt(ws: seq<Word>, i: nat)
    requires i < 4 * |ws|
    ensures BytesLE(ws)[i] == ByteOf(ws[i / 4], i % 4)
    decreases i
  {
    if i >= 4 {
      BytesLEAt(ws[1..], i - 4);
      assert BytesLE(ws)[i] == BytesLE(ws[1..])[i - 4];
    }
  }

  /** Byte `i` of a big-endian serialisation is byte `3 - i % 4` (counted from
      the least significant end) of word `i / 4`. */
  lemma {:induction false} BytesBEAt(ws: seq<Word>, i: nat)
    requires i < 4 * |ws|
    ensures BytesBE(ws)[i] == ByteOf(ws[i / 4], 3 - i % 4)
    decreases i
  {
    if i >= 4 {
      BytesBEAt(ws[1..], i - 4);
      assert BytesBE(ws)[i] == BytesBE(ws[1..])[i - 4];
    }
  }

  /** Serialising one more word little-endian appends its four bytes. */
  lemma {:induction false} BytesLESnoc(ws: seq<Word>, w: Word)
    ensures BytesLE(ws + [w]) == BytesLE(ws) + LE(w)
  {
    if ws == [] {
      assert ws + [w] == [w];
    } else {
      assert (ws + [w])[1..] == ws[1..] + [w];
      BytesLESnoc(ws[1..], w);
    }
  }

  /** Serialising one more word big-endian appends its four bytes. */
  lemma {:induction false} BytesBESnoc(ws: seq<Word>, w: Word)
    ensures BytesBE(ws + [w]) == BytesBE(ws) + BE(w)
  {
    if ws == [] {
      assert ws + [w] == [w];
    } else {
      assert (ws + [w])[1..] == ws[1..] + [w];
      BytesBESnoc(ws[1..], w);
    }
  }

  /** Serialising words little-endian and reading them back is the identity. */
  lemma {:induction false} WordsOfBytesLE(ws: seq<Word>)
    ensures WordsLE(BytesLE(ws)) == ws
  {
    if ws != [] {
      var bs := BytesLE(ws);
      assert bs[4..] == BytesLE(ws[1..]);
      WordsOfBytesLE(ws[1..]);
      assert bs[..4] == LE(ws[0]);
    }
  }

  /** Reading a buffer as little-endian words and serialising them back
      little-endian is the identity. */
  lemma {:induction false} BytesOfWordsLE(bs: seq<Byte>)
    requires |bs| % 4 == 0
    ensures BytesLE(WordsLE(bs)) == bs
    decreases |bs|
  {
    if bs != [] {
      var ws := WordsLE(bs);
      assert ws[1..] == WordsLE(bs[4..]);
      BytesOfWordsLE(bs[4..]);
      LEOfWordLE(bs[0], bs[1], bs[2], bs[3]);
      assert bs == [bs[0], bs[1], bs[2], bs[3]] + bs[4..];
    }
  }

  /** Byte-wise exclusive or of two buffers of the same length. */
  function Xor(a: seq<Byte>, b: seq<Byte>): (r: seq<Byte>)
    requires |a| == |b|
    ensures |r| == |a|
    ensures forall i :: 0 <= i < |r| ==> r[i] == a[i] ^ b[i]
  {
    seq(|a|, i requires 0 <= i < |a| => a[i] ^ b[i])
  }

  /** Xor-ing the same byte twice cancels. */
  lemma ByteXorCancel(a: Byte, pad: Byte)
    ensures (a ^ pad) ^ pad == a
  {
  }

  /** Xor-ing the same pad twice gives the original buffer back. */
  lemma XorInvolution(a: seq<Byte>, pad: seq<Byte>)
    requires |a| == |pad|
    ensures Xor(Xor(a, pad), pad) == a
  {
  }
}
